=== FILE: README.md ===
# Legislative-notice collection and reconciliation, in Dafny

This project models the backend pipeline of the `law` service. The service
collects Korean legislative notices (입법예고) from two places:

- the National Assembly, the legislature, with source `"national"`;
- the executive branch's lawmaking portal, with source `"admin"`.

It reconciles them into one record type, `LegislationItem`, keeps them in a
table, and serves them over HTTP. The model covers:

- **Scrapers** (`WebScraper`, from `backend/services/web_scraper.py`):
  - the opinion-marker trimmer, the committee cleanup and the relative-URL
    absolutiser;
  - the comment-period parser (`PeriodParser`, with calendar dates in
    `Dates`);
  - the fold over a legislature detail page's table rows, and the filter
    on an executive-branch detail page;
  - the two paged listing loops, with their page ceilings and early stops.
- **Collection service** (`LegislationService`, from
  `backend/services/legislation_service.py`):
  - the open-API collection into an insertion-ordered dictionary;
  - the "API wins" merge with the scraped records;
  - the executive-branch conversion and the title cleanup;
  - the `[]` fallback of the two entry points.
- **Store** (`DatabaseService`, from `backend/services/database_service.py`):
  - a class holding the table, with the upsert keyed by bill number and
    source. The lookup sees the table as it was before the batch;
  - the active-only reads, newest first; the keyword search and the counts;
  - delete-by-source and soft deactivation.
- **HTTP handlers** (`Handlers`, from `backend/main.py`): the cache-aside
  policy of `/national`, `/admin` and `/all`, and the count-only `/refresh`.
- **Scheduled crawler** (`ScheduledCrawler`, from `scheduled_crawler.py`):
  the delete-then-save step per source and the mode dispatch.

Everything outside the process becomes a parameter:

- A listing page is `nat -> Option<seq<string>>`: the link targets found on
  page `n`, or `None` when the request or parse raised.
- A detail page is `string -> Option<Page>`: the texts the CSS selectors
  find.
- API pages are `seq<Option<seq<ApiRow>>>`.
- The clock is `now`, `target` and `today`.
- The outcome of each store commit is a `bool`, and so is the outcome of
  each store read (`readOk`): a failing read is caught and answers `[]`,
  or zero counts for the statistics.
- Each crawl that a handler or the crawler would start is the sequence of
  items it would return.

Each loop of the source is a method with invariants, proved equal to a
function. The source's promises are proved about those functions.

## Model

| member | source | states |
|---|---|---|
| WebScraper.ExtractUntilOpinionCut | backend/services/web_scraper.py:354-360 | When marker `p` is the first of the four markers present, the result is the stripped text before its first occurrence, and that marker no longer occurs in it. |
| WebScraper.ExtractUntilOpinionNoMarker | backend/services/web_scraper.py:354-360 | With no marker present, the result is the stripped text, and trimming it again changes nothing. |
| WebScraper.CutAtMarkersFirst | backend/services/web_scraper.py:356-359 | The markers are tried in list order: the first one present decides the cut. |
| WebScraper.CutAtMarkersNone | backend/services/web_scraper.py:360 | With no marker present, the text is only stripped. |
| WebScraper.AbsolutiseShape | backend/services/web_scraper.py:70-75 | An href starting with `/` gets the host prefixed (iff); any other href is returned unchanged (iff); the href is always the URL's tail. |
| WebScraper.AbsolutiseIdempotent | backend/services/web_scraper.py:237-241 | Absolutising an already absolutised link changes nothing. |
| WebScraper.CleanCommittee | backend/services/web_scraper.py:289-291 | The committee never holds "전화번호"; without it, the committee is the stripped cell text. |
| WebScraper.FirstFound | backend/services/web_scraper.py:280-282 | The fallback selector is consulted only when the first finds nothing: the first found element wins; none found iff all are missing. |
| WebScraper.ScrapeAdminDetail | backend/services/web_scraper.py:271-352 | A returned record has proposer "", source "admin" and start date equal to the target. |
| WebScraper.AdminDetailKept | backend/services/web_scraper.py:296-325 | A record is returned iff the page was fetched, a period element exists, the period parses to valid dates, the start renders as the target, and the end is not before today. Its end date is the rendered end. |
| PeriodParser.ParsePeriod | backend/services/web_scraper.py:301-313 | NoMatch iff the pattern is absent. When it matches, the result is a period iff both captured dates are valid calendar dates, and the period is exactly those two dates. |
| PeriodParser.LeftmostFrom | backend/services/web_scraper.py:301-304 | The scan position `re.search` settles on: the first position that satisfies the test, every earlier one failing; none when no position satisfies it. |
| PeriodParser.SearchFrom | backend/services/web_scraper.py:301-304 | `re.search`: the result is the match at the leftmost position that matches; none when no position matches. |
| PeriodParser.OneSidedPeriod | backend/services/web_scraper.py:301-304 | A text without `~` never yields a period. |
| PeriodParser.RenderedPeriod | backend/services/web_scraper.py:306-313 | The rendered dates are the captured year followed by the zero-padded month and day: `YYYY-MM-DD`. |
| PeriodParser.Pad4OfValue | backend/services/web_scraper.py:306-308 | `%Y` renders a four-digit year group back exactly as captured. |
| PeriodParser.Pad4OfDigits | backend/services/web_scraper.py:306-308 | Four digits read as a number and written with `%Y` are the same four digits. |
| Dates.RenderRoundTrip | backend/services/web_scraper.py:316 | Reading back the three fields of a rendered date gives the date. |
| Dates.RenderInjective | backend/services/web_scraper.py:316 | Two dates render alike iff they are equal, so the string comparison with the target compares dates. |
| WebScraper.ApplyRow | backend/services/web_scraper.py:144-167 | A row with fewer than two cells, or with an unrecognised heading, changes nothing; each row sets at most the fields of its `elif` branch. |
| WebScraper.ApplyRowsLastWins | backend/services/web_scraper.py:141-167 | Each field holds the value of the last row of its kind, or its default when there is none. |
| WebScraper.SplitPeriodParts | backend/services/web_scraper.py:160-167 | Neither half of the split period holds `~`; start and end are both the stripped value iff the value has no `~`. |
| WebScraper.LastValue | backend/services/web_scraper.py:142-158 | The value found is the second cell of a row of that kind; none is found iff no row of that kind has two cells. |
| WebScraper.FirstContent | backend/services/web_scraper.py:169-175 | The content is the first div longer than 50 characters mentioning 내용, 요약 or 개요; there is none iff no div qualifies. |
| WebScraper.NationalDetailKept | backend/services/web_scraper.py:124-190 | A record is returned iff the page was fetched and the start string equals the target exactly. A page without a period row keeps the target as start and end, and is kept. A kept record starts on the target. |
| WebScraper.ReadTables | backend/services/web_scraper.py:141-167 | The nested row loop computes the last-wins fold from the sentinel defaults. |
| WebScraper.FindContent | backend/services/web_scraper.py:169-175 | The div loop returns the first qualifying div, or "(내용 없음)". |
| WebScraper.ScrapeNationalDetail | backend/services/web_scraper.py:115-194 | The method computes the detail-page function. |
| WebScraper.PageLinks | backend/services/web_scraper.py:64-75 | A page yields at most one link per row. |
| WebScraper.PageLinksAt | backend/services/web_scraper.py:64-75 | Row by row and in order, a non-empty `href` contributes its absolutised URL and an empty one contributes nothing; every non-empty `href` yields a link. |
| WebScraper.PageLinksFrom | backend/services/web_scraper.py:64-75 | Every link is the absolutised form of some non-empty `href`; a page has no links iff every `href` is empty. |
| WebScraper.KeepVisited | backend/services/web_scraper.py:93-106 | Detail pages that fail or are filtered out are skipped: the result is no longer than the links. |
| WebScraper.KeepVisitedAt | backend/services/web_scraper.py:93-106 | Link by link and in order, a link whose visit yields a record contributes that record at its place; a failing visit contributes nothing and the later links are still visited. |
| WebScraper.KeepVisitedHas | backend/services/web_scraper.py:93-106 | Every record a visit yields is in the result. |
| WebScraper.KeepVisitedFrom | backend/services/web_scraper.py:93-106 | Every record returned came from visiting one of the links. |
| WebScraper.PrependTwice | backend/services/web_scraper.py:80 | Extending page by page is the same as extending once with the concatenation. |
| WebScraper.ReadNationalPage | backend/services/web_scraper.py:52-88 | One page-loop iteration: it raises, stops, or continues exactly as the listing function says. |
| WebScraper.CollectNationalLinks | backend/services/web_scraper.py:38-88 | The page loop returns the links of the listing function from page 1, or None when a request raised. |
| WebScraper.VisitNationalLinks | backend/services/web_scraper.py:93-106 | The detail loop keeps, in order, the records of the links whose visit yields one. |
| WebScraper.GetNationalLegislationData | backend/services/web_scraper.py:25-113 | The method computes the scrape function of the two sites. |
| WebScraper.NationalLinksAgree | backend/services/web_scraper.py:41-88 | Listings that agree up to the tenth page, or up to the first page without links, give the same links. |
| WebScraper.NationalScrapeReadsPrefix | backend/services/web_scraper.py:41-88 | The scrape reads at most ten listing pages, and none after the first page without links. |
| WebScraper.NationalLinksFail | backend/services/web_scraper.py:52-113 | A request that raises after pages full of links loses all the links. |
| WebScraper.NationalScrapeFails | backend/services/web_scraper.py:111-113 | A failing listing request makes the whole scrape `[]`, discarding earlier pages. |
| WebScraper.NationalScrapeWindow | backend/services/web_scraper.py:93-106 | Every record of the scrape starts on the target date and comes from visiting one of the collected links. |
| WebScraper.NationalLinksInclude | backend/services/web_scraper.py:52-88 | When no listing request raises, every link of page `k` is collected, provided each earlier page had links. |
| WebScraper.NationalScrapeKeeps | backend/services/web_scraper.py:52-106 | When no listing request raises, every link of a page read whose detail page yields a record contributes that record to the scrape. |
| WebScraper.ScrapeAdminListingPage | backend/services/web_scraper.py:232-249 | The inner loop keeps the visit results of the page's absolutised links, in order. |
| WebScraper.ReadAdminPage | backend/services/web_scraper.py:220-262 | One page-loop iteration: it raises, stops, or continues exactly as the listing function says. |
| WebScraper.CollectAdminPages | backend/services/web_scraper.py:207-269 | The page loop returns the records of the listing function from page 1, or `[]` when a request raised. |
| WebScraper.GetAdminLegislationData | backend/services/web_scraper.py:196-269 | The method computes the executive-branch scrape function. |
| WebScraper.AdminFromAgree | backend/services/web_scraper.py:210-262 | Listings that agree up to the fifth page, or up to the first page with no kept record, give the same records. |
| WebScraper.AdminFromFail | backend/services/web_scraper.py:220-269 | A request that raises after productive pages loses their records. |
| WebScraper.AdminVisitKept | backend/services/web_scraper.py:296-325 | A record that one detail page yields starts on the target, has proposer "" and source "admin", and ends on a valid date that is not before today. |
| WebScraper.AdminPageKept | backend/services/web_scraper.py:232-249 | Every record that one listing page's links yield passed that filter. |
| WebScraper.AdminFromPages | backend/services/web_scraper.py:220-262 | Every record collected from a page on was kept on one of the pages read. |
| WebScraper.AdminFromWindow | backend/services/web_scraper.py:316-321 | Every record collected from a page on starts on the target, has proposer "" and source "admin", and ends on a valid date that is not before today. |
| WebScraper.AdminScrapeWindow | backend/services/web_scraper.py:316-348 | Every record of the scrape starts on the target, ends on a valid date that is not before today, and has proposer "" and source "admin". |
| WebScraper.AdminFromInclude | backend/services/web_scraper.py:220-262 | When no listing request raises, every record kept on page `k` is collected, provided each earlier page kept a record. |
| WebScraper.AdminScrapeKeeps | backend/services/web_scraper.py:220-262 | When no listing request raises, every link of a page read whose detail page passes the filter contributes its record to the scrape. |
| LegislationService.CleanTitleShape | backend/services/legislation_service.py:168-171 | A title lacking `]` or `(` is kept. Otherwise the result is the text after the last `]`, cut before its first `(` when it has one, then stripped; it holds neither character. |
| LegislationService.Put | backend/services/legislation_service.py:87 | Assigning an existing key keeps its position; a new key goes last; no key moves. |
| LegislationService.PutLookup | backend/services/legislation_service.py:87 | After the assignment, the key maps to the new value, other keys are unchanged, and keys stay unique. |
| LegislationService.Lookup | backend/services/legislation_service.py:87 | A key is found iff the dictionary holds it. |
| LegislationService.Info | backend/services/legislation_service.py:87-95 | An entry keeps the row's bill number and always has the summary "(내용 없음)". |
| LegislationService.LastMatchIsLast | backend/services/legislation_service.py:81-87 | The row found is the last row of the page with that bill number starting on the target; there is none iff no row has both. |
| LegislationService.CollectRowsLookup | backend/services/legislation_service.py:81-95 | After a page, a key maps to its last row that starts on the target, or keeps its old entry when the page has none. |
| LegislationService.CollectRowsKeeps | backend/services/legislation_service.py:81-95 | Earlier keys stay in place, and every entry has the summary "(내용 없음)". |
| LegislationService.CollectApiData | backend/services/legislation_service.py:56-99 | The page loop computes the dictionary function. |
| LegislationService.ApiPageStep | backend/services/legislation_service.py:66-97 | A non-empty page is folded in, and the loop moves to the next page. |
| LegislationService.ApiFromStopsAtEmptyPage | backend/services/legislation_service.py:78-79 | Pages after the first empty page are never read. |
| LegislationService.ApiFromFails | backend/services/legislation_service.py:74-76 | A request that raises before the first empty page loses the whole dictionary. |
| LegislationService.ApiFromShape | backend/services/legislation_service.py:58-99 | The result has unique keys and the fixed summary, and extends the initial dictionary. |
| LegislationService.PutEntries | backend/services/legislation_service.py:87 | An assignment adds or replaces exactly the one entry. |
| LegislationService.CollectRowsEntries | backend/services/legislation_service.py:81-95 | Every entry a page adds is built from one of its rows that starts on the target, under that row's bill number. |
| LegislationService.ApiFromEntries | backend/services/legislation_service.py:66-97 | Across all pages read, every entry not in the initial dictionary is built from a row that starts on the target, under its bill number. |
| LegislationService.ApiItems | backend/services/legislation_service.py:474-486 | One item per API entry. |
| LegislationService.NewRows | backend/services/legislation_service.py:489-491 | The scraped rows kept are a subsequence of the input. |
| LegislationService.NewRowsMembers | backend/services/legislation_service.py:489-491 | A scraped row is kept iff its bill number is not an API key; with no API data, every row is kept. |
| LegislationService.CombineShape | backend/services/legislation_service.py:469-505 | The merge has length "API keys + kept scraped rows". First come the API items in dictionary order, each with start date "" and source "national". Then come the kept scraped rows, in input order. |
| LegislationService.CombineApiWins | backend/services/legislation_service.py:488-503 | For a key in the API map, every merged item with that bill number is built from the API entry. |
| LegislationService.CombineDataNew | backend/services/legislation_service.py:431-505 | The two loops compute the merge function. `_combine_data` has the same body and is modelled by the same member. |
| LegislationService.ConvertAdminDataToItems | backend/services/legislation_service.py:507-524 | One item per record, in order, with every field carried over, no bill number, and the creation time set to `now`. |
| LegislationService.AdminItems | backend/services/legislation_service.py:507-524 | The conversion preserves length. |
| LegislationService.GetNationalLegislation | backend/services/legislation_service.py:27-42 | The method computes the function of the API pages and the scrape. |
| LegislationService.GetAdminLegislation | backend/services/legislation_service.py:44-54 | The method computes the function of the executive-branch scrape. |
| LegislationService.NationalLegislationFails | backend/services/legislation_service.py:40-42 | A failing API request makes the result `[]`. |
| LegislationService.AdminLegislationFails | backend/services/legislation_service.py:52-54 | A failing listing request after productive pages makes the result `[]`. |
| LegislationService.AdminLegislationWindow | backend/services/legislation_service.py:44-54 | Every executive-branch item starts on the target, has no bill number, source "admin" and proposer "". |
| DatabaseService.FindKey | backend/services/database_service.py:22-27 | The match is a row with the same bill number (absent matches absent) and source, taken as the first in table order (the model's choice; see "## Left out"); there is none iff no row matches. |
| DatabaseService.LastHitIsLast | backend/services/database_service.py:20-39 | The item that ends up on a row is the last item of the batch whose lookup lands on it; there is none iff no item lands there. |
| DatabaseService.UpdatedShape | backend/services/database_service.py:29-39 | An update keeps the id, key and creation time. It copies every content field, reactivates the row and stamps `now`. A later update erases an earlier one. |
| DatabaseService.SaveAllRows | backend/services/database_service.py:20-56 | After a batch, each existing row is either unchanged or overwritten by the last item matching it. The unmatched items follow, in order, with consecutive fresh ids. |
| DatabaseService.SaveKeepsIdsOrdered | backend/services/database_service.py:40-54 | A batch keeps ids unique, increasing and below the next id. |
| DatabaseService.SameNewKeyInsertsTwice | backend/services/database_service.py:20-54 | Two items of one batch with the same unseen key both insert. |
| DatabaseService.SharedAdminKey | backend/services/database_service.py:22-39 | Once an executive-branch row exists, a batch of executive-branch items (no bill number) inserts nothing. With the lookup taken as the first matching row in table order, all of them land on that row, which ends up holding the last item; other rows are unchanged. |
| DatabaseService.DatabaseService.SaveLegislationData | backend/services/database_service.py:15-65 | The loop computes the batch function; it returns `len(items)`. A failing commit leaves the table unchanged and reports an error. |
| DatabaseService.SortNewestFirstSorted | backend/services/database_service.py:76 | `ORDER BY created_at DESC` orders newest first and is a permutation. |
| DatabaseService.ActiveOf | backend/services/database_service.py:70-73 | A row is selected iff it is active and passes the source filter (an absent or empty source filters nothing). |
| DatabaseService.QueryShape | backend/services/database_service.py:67-76 | The result holds only active rows of the source, newest first, at most `limit` of them. It holds all of them when they are fewer, and any row left out is no newer than those returned. |
| DatabaseService.TakeNewest | backend/services/database_service.py:76 | The limit takes a newest-first prefix. |
| DatabaseService.DatabaseService.GetLegislationData | backend/services/database_service.py:67-100 | The method returns the query's rows converted one by one; a failing read answers `[]`. |
| DatabaseService.ReadItems | backend/services/database_service.py:79-94 | The conversion loop yields the converted rows in order. |
| DatabaseService.ToItems | backend/services/database_service.py:79-94 | Each item is its row's conversion, with the row's id and creation time. |
| DatabaseService.RecentRowsShape | backend/services/database_service.py:105-112 | The recent rows are exactly the active rows created at or after the cutoff, newest first. |
| DatabaseService.DatabaseService.GetRecentData | backend/services/database_service.py:102-135 | The cutoff is `now - hours*3600`; the method returns the recent rows converted; a failing read answers `[]`. |
| DatabaseService.SearchHitsShape | backend/services/database_service.py:140-154 | The hits are exactly the active rows of the source whose title, committee or content holds the keyword, newest first. |
| DatabaseService.DatabaseService.SearchLegislation | backend/services/database_service.py:137-177 | The method returns the hits converted; a failing read answers `[]`. |
| DatabaseService.StatisticsAddUp | backend/services/database_service.py:182-188 | The per-source counts never exceed the total, and add up to it when every row has one of the two sources. |
| DatabaseService.DatabaseService.GetStatistics | backend/services/database_service.py:179-194 | The method counts active rows overall and per source; a failing read answers zero for all three. |
| DatabaseService.DeleteShape | backend/services/database_service.py:203-205 | Deletion removes exactly the rows of the source, keeps the others, and removes as many rows as the source had. |
| DatabaseService.DatabaseService.DeleteLegislationBySource | backend/services/database_service.py:200-214 | A committed delete leaves the remaining rows and returns the count deleted. A failing commit leaves the table unchanged and returns 0. |
| DatabaseService.DeactivateAllShape | backend/services/database_service.py:221-230 | Cleanup deactivates and stamps exactly the active rows created before the cutoff. Every other row is unchanged, and no stale row remains. |
| DatabaseService.DatabaseService.CleanupOldData | backend/services/database_service.py:216-237 | The cutoff is `now - days*86400`. The loop computes the cleanup function; a failing commit leaves the table unchanged. |
| Handlers.GetLegislationBySource | backend/main.py:52 | The undefined `get_legislation_by_source` reads like `get_legislation_data(source)` with its default limit; a failing read answers `[]`. |
| Handlers.StoredNonEmpty | backend/main.py:54 | The store serves a source iff it holds an active row of that source. |
| Handlers.Fallback | backend/main.py:54-59 | Data the read returned is served unchanged, with no crawl or write. Otherwise (an empty store or a failing read, which answers `[]`) the crawl is returned and saved only when non-empty; a failing save is an error. |
| Handlers.FallbackWarmsStore | backend/main.py:56-59 | After a fallback save of a non-empty crawl of one source, the store serves that source. |
| Handlers.GetSourceLegislation | backend/main.py:47-89 | The response is the served data with `success` true and `total_count` its length, and the store changes only through the fallback save. A failing read counts as a miss: the crawl is served and saved even when the store holds rows. |
| Handlers.GetNationalLegislation | backend/main.py:47-68 | As above, for `"national"`. |
| Handlers.GetAdminLegislation | backend/main.py:70-91 | As above, for `"admin"`. |
| Handlers.GetAllLegislation | backend/main.py:93-121 | Both sources are read before any fallback, and each falls back on its own. The response is national data followed by admin data. It is an error iff a fallback save fails. The new table is the national fallback's save applied to the old one, then the admin fallback's save unless the national save failed. |
| Handlers.RefreshLegislationData | backend/main.py:123-139 | The report has the two crawl sizes and their sum; no store is written. |
| ScheduledCrawler.CrawlAndSave | scheduled_crawler.py:30-74 | Delete the source, then save a non-empty crawl. The step fails iff the save fails, and then the delete has already taken effect. |
| ScheduledCrawler.CrawlAndSaveNational | scheduled_crawler.py:30-51 | As above, for `"national"`. |
| ScheduledCrawler.CrawlAndSaveAdmin | scheduled_crawler.py:53-74 | As above, for `"admin"`. |
| ScheduledCrawler.Run | scheduled_crawler.py:87-108 | The dispatch computes the run function: its table and its outcome. |
| ScheduledCrawler.UnknownModeTouchesNothing | scheduled_crawler.py:101-103 | An unknown mode changes nothing and does not notify. |
| ScheduledCrawler.RunCompletes | scheduled_crawler.py:94-106 | A run notifies iff its mode is known and none of its saves failed. In mode "all", a failing national save leaves the admin rows untouched: an admin row is in the table after iff it was there before. |
| ScheduledCrawler.EmptyCrawlClearsSource | scheduled_crawler.py:36-47 | After an empty crawl the source has no rows, and every other row stays. |
| ScheduledCrawler.DeleteThenSaveInsertsAll | scheduled_crawler.py:36-44 | Because the delete runs first, every crawled item of the source is inserted. The other rows stay in order, followed by one new row per item with consecutive ids. |

## Left out

- HTTP requests, headers and timeouts, and BeautifulSoup parsing and its
  CSS selectors: their results are the inputs described above.
- The browser-driven collectors `_collect_selenium_data` and
  `_collect_admin_data` (backend/services/legislation_service.py:101-421).
  Of them, only the title cleanup (lines 168-171) is modelled. Their other
  fragments repeat the scraper code.
- `time.sleep` pacing, logging and `print`.
- The FastAPI application, CORS, and HTTP status mapping.
- The notification POST of the scheduled crawler: it is only an outcome
  (`Completed`). Its failure is swallowed, so it changes nothing modelled.
- Reading the mode from `sys.argv` (with `"all"` as default): `Run` takes
  the mode as given.
- Clock reads become parameters: `now`, `target` and `today`. The scraper
  reads `datetime.today()` once per scrape; the model also uses a single
  `now` for every item of a batch, where the source calls
  `datetime.now()`/`utcnow()` per item.
- Local time versus UTC: `Timestamp` is a plain number of seconds.
- `\d` and `\s` are taken as ASCII digits and Python whitespace. Unicode
  digits that Python's `\d` accepts are not modelled.
- `strftime("%Y")` for years below 1000: Python's output is
  platform-dependent, so `Render` zero-pads to four digits. The
  comparisons with the target use the same rendering.
- The open-API loop has no page bound in the source. The model's page
  sequence is finite, and pages past its end read as empty.
- JSON shapes: a missing field reads as "" (and a missing `BILL_NO` as
  `None`), as `.get` gives; JSON `null` values are not modelled.
- `LegislationItem.id` is `str(row.id)` in the source and a number here.
- SQL `LIKE` in `search_legislation` is case-insensitive for ASCII in
  SQLite (and case-sensitive in PostgreSQL), and treats `%` and `_` in the keyword as wildcards. The model uses plain
  substring search.
- Ties under `ORDER BY created_at DESC`: SQL leaves their order
  unspecified, while the model's sort is stable. Every contract holds for
  any tie order.
- Row ids come from a counter that never reuses an id; SQLite may reuse the
  largest id after a delete.
- An exception in the middle of a batch in `save_legislation_data` is
  modelled only as a failing commit; the effect is the same rollback.
- Nested tables inside a legislature detail page: the row lists are
  folded as the selectors return them. `select('table')` lists an inner
  table too, and the outer table's `select('tr')` returns the inner rows,
  so nested rows appear under both tables, as in the source. The model
  takes the row lists as given and does not compute them from the markup.
- DatabaseService.FindKey: the lookup `.filter(...).first()` has no
  `ORDER BY`, so when several rows share (bill number, source) SQL leaves
  unspecified which of them comes back. Such duplicates do arise: every
  executive-branch row has the key (no bill number, "admin"), and one batch
  can insert a new key twice. The model takes the first matching row in
  table order, the lowest id, which is what a SQLite rowid scan returns;
  PostgreSQL may return another after updates. SharedAdminKey and
  SaveAllRows rest on this choice.
- `get_legislation_data` with a negative limit: the limit is a `nat`.
- Handlers.GetLegislationBySource: the store class defines no
  `get_legislation_by_source`, so as written every `/national`, `/admin`
  and `/all` request raises `AttributeError` inside its `try` and answers
  500. The model describes the intended cache-aside read, as
  `get_legislation_data(source)` with its default limit.
- backend/models/database.py is used only for `autoflush=False` and the
  nullable bill number. The frontend files and backend/test_scraper.py are
  not part of this model.

=== FILE: database_service.dfy ===
/** `DatabaseService`: the table of legislation notices, with upsert by
    (bill number, source), newest-first reads, search, counts, deletion by
    source and soft deactivation of old rows. */
module DatabaseService {
  import opened Outcomes
  import opened Strings
  import opened Records

  /** A row of the `legislation` table. */
  datatype Row = Row(
    id: nat,
    billNo: Option<string>,
    title: string,
    committee: string,
    proposer: Option<string>,
    startDate: string,
    endDate: string,
    content: string,
    linkUrl: string,
    source: string,
    createdAt: Timestamp,
    updatedAt: Timestamp,
    isActive: bool)

  /** The rows in table order, and the id the next inserted row gets. */
  datatype Table = Table(rows: seq<Row>, nextId: nat)

  /** Ids grow along the table and stay below the next id to hand out. */
  predicate IdsOrdered(rows: seq<Row>, nextId: nat) {
    && (forall i, j :: 0 <= i < j < |rows| ==> rows[i].id < rows[j].id)
    && (forall i :: 0 <= i < |rows| ==> rows[i].id < nextId)
  }

  // ---------------------------------------------------------------------
  // Upsert

  /** A row whose bill number and source equal the item's; an absent bill
      number matches only rows whose bill number is absent too (`IS NULL`).
      The query has no `ORDER BY`, so among several matching rows this model
      takes the first in table order, the lowest id. */
  function FindKey(rows: seq<Row>, billNo: Option<string>, source: string): (r: Option<nat>)
    ensures r.Some? ==> r.value < |rows| && rows[r.value].billNo == billNo && rows[r.value].source == source
    ensures r.Some? ==> forall j :: 0 <= j < r.value ==> !(rows[j].billNo == billNo && rows[j].source == source)
    ensures r.None? ==> forall j :: 0 <= j < |rows| ==> !(rows[j].billNo == billNo && rows[j].source == source)
  {
    if rows == [] then None
    else if rows[0].billNo == billNo && rows[0].source == source then Some(0)
    else
      var r := FindKey(rows[1..], billNo, source);
      if r.Some? then Some(r.value + 1) else None
  }

  /** A matched row after an item is written over it. */
  function Updated(row: Row, item: Item, now: Timestamp): Row {
    row.(title := item.title, committee := item.committee, proposer := item.proposer,
         startDate := item.startDate, endDate := item.endDate, content := item.content,
         linkUrl := item.linkUrl, updatedAt := now, isActive := true)
  }

  /** A new row for an unmatched item. */
  function NewRow(id: nat, item: Item, now: Timestamp): Row {
    Row(id, item.billNo, item.title, item.committee, item.proposer, item.startDate, item.endDate,
        item.content, item.linkUrl, item.source, item.createdAt.GetOr(now), now, true)
  }

  /** An update keeps the row's id, key and creation time, reactivates it,
      stamps it with `now`, and takes every content field from the item;
      a second update leaves no trace of the first. */
  lemma UpdatedShape(row: Row, item: Item, later: Item, now: Timestamp, now2: Timestamp)
    ensures var u := Updated(row, item, now);
      && u.id == row.id && u.billNo == row.billNo && u.source == row.source && u.createdAt == row.createdAt
      && u.isActive && u.updatedAt == now
      && u.title == item.title && u.committee == item.committee && u.proposer == item.proposer
      && u.startDate == item.startDate && u.endDate == item.endDate && u.content == item.content
      && u.linkUrl == item.linkUrl
    ensures Updated(Updated(row, item, now), later, now2) == Updated(row, later, now2)
  {
  }

  /** The table after the items up to now, each looked up in `snapshot`,
      the table as it was before the batch: new rows are not seen by later
      lookups. */
  function SaveAll(snapshot: seq<Row>, t: Table, items: seq<Item>, now: Timestamp): (r: Table)
    requires |snapshot| <= |t.rows|
    ensures |t.rows| <= |r.rows|
  {
    if items == [] then t
    else
      var prior := SaveAll(snapshot, t, items[..|items| - 1], now);
      var item := items[|items| - 1];
      match FindKey(snapshot, item.billNo, item.source)
      case Some(k) => Table(prior.rows[k := Updated(prior.rows[k], item, now)], prior.nextId)
      case None => Table(prior.rows + [NewRow(prior.nextId, item, now)], prior.nextId + 1)
  }

  /** The table after a committed batch. */
  function Save(t: Table, items: seq<Item>, now: Timestamp): Table {
    SaveAll(t.rows, t, items, now)
  }

  /** Whether `item` lands on row `i` of the snapshot. */
  predicate Hits(snapshot: seq<Row>, item: Item, i: nat) {
    FindKey(snapshot, item.billNo, item.source) == Some(i)
  }

  /** The last item of the batch that lands on row `i` of the snapshot;
      none exactly when no item lands there. */
  function LastHit(snapshot: seq<Row>, items: seq<Item>, i: nat): (r: Option<Item>)
    ensures r.Some? ==> r.value in items && FindKey(snapshot, r.value.billNo, r.value.source) == Some(i)
  {
    if items == [] then None
    else
      var item := items[|items| - 1];
      if Hits(snapshot, item, i) then Some(item)
      else LastHit(snapshot, items[..|items| - 1], i)
  }

  /** The item found is the last one landing on the row, and there is none
      exactly when no item lands there. */
  lemma {:induction false} LastHitIsLast(snapshot: seq<Row>, items: seq<Item>, i: nat)
    ensures LastHit(snapshot, items, i).None? <==> forall j :: 0 <= j < |items| ==> !Hits(snapshot, items[j], i)
    ensures LastHit(snapshot, items, i).Some? ==> exists m ::
      && 0 <= m < |items| && LastHit(snapshot, items, i).value == items[m] && Hits(snapshot, items[m], i)
      && forall j :: m < j < |items| ==> !Hits(snapshot, items[j], i)
  {
    if items != [] {
      var init := items[..|items| - 1];
      var last := |items| - 1;
      var r := LastHit(snapshot, items, i);
      if Hits(snapshot, items[last], i) {
        assert r == Some(items[last]);
      } else {
        assert r == LastHit(snapshot, init, i);
        LastHitIsLast(snapshot, init, i);
        assert forall j :: 0 <= j < |init| ==> init[j] == items[j];
        if r.Some? {
          var m :| 0 <= m < |init| && r.value == init[m] && Hits(snapshot, init[m], i)
            && forall j :: m < j < |init| ==> !Hits(snapshot, init[j], i);
          assert r.value == items[m] && forall j :: m < j < |items| ==> !Hits(snapshot, items[j], i);
        }
      }
    }
  }

  /** The items of the batch that match no row of the snapshot, in order,
      duplicates included. */
  function Unmatched(snapshot: seq<Row>, items: seq<Item>): (r: seq<Item>)
    ensures |r| <= |items|
  {
    if items == [] then []
    else
      var prior := Unmatched(snapshot, items[..|items| - 1]);
      var item := items[|items| - 1];
      if FindKey(snapshot, item.billNo, item.source).None? then prior + [item] else prior
  }

  /** New rows for `items`, numbered from `firstId`. */
  function InsertRows(items: seq<Item>, firstId: nat, now: Timestamp): (r: seq<Row>)
    ensures |r| == |items|
  {
    if items == [] then []
    else InsertRows(items[..|items| - 1], firstId, now) + [NewRow(firstId + |items| - 1, items[|items| - 1], now)]
  }

  function RowAfter(row: Row, hit: Option<Item>, now: Timestamp): Row {
    match hit
    case None => row
    case Some(item) => Updated(row, item, now)
  }

  /** What a batch does to the table: every existing row is either left
      alone or overwritten by the last item that matched it, and the
      unmatched items are appended in order with fresh consecutive ids. */
  lemma SaveAllRows(snapshot: seq<Row>, nextId: nat, items: seq<Item>, now: Timestamp)
    ensures var r := SaveAll(snapshot, Table(snapshot, nextId), items, now);
      && |r.rows| == |snapshot| + |Unmatched(snapshot, items)|
      && r.nextId == nextId + |Unmatched(snapshot, items)|
      && (forall i :: 0 <= i < |snapshot| ==> r.rows[i] == RowAfter(snapshot[i], LastHit(snapshot, items, i), now))
      && r.rows[|snapshot|..] == InsertRows(Unmatched(snapshot, items), nextId, now)
  {
    SaveAllAppends(snapshot, nextId, items, now);
    SaveAllOverwrites(snapshot, nextId, items, now);
  }

  /** The rows a batch appends: one per unmatched item, in order. */
  lemma {:induction false} SaveAllAppends(snapshot: seq<Row>, nextId: nat, items: seq<Item>, now: Timestamp)
    ensures var r := SaveAll(snapshot, Table(snapshot, nextId), items, now);
      && |r.rows| == |snapshot| + |Unmatched(snapshot, items)|
      && r.nextId == nextId + |Unmatched(snapshot, items)|
      && r.rows[|snapshot|..] == InsertRows(Unmatched(snapshot, items), nextId, now)
  {
    if items != [] {
      var init := items[..|items| - 1];
      var item := items[|items| - 1];
      SaveAllAppends(snapshot, nextId, init, now);
      var prior := SaveAll(snapshot, Table(snapshot, nextId), init, now);
      var r := SaveAll(snapshot, Table(snapshot, nextId), items, now);
      match FindKey(snapshot, item.billNo, item.source)
      case Some(k) =>
        assert r.rows[|snapshot|..] == prior.rows[|snapshot|..];
      case None =>
        assert r.rows[|snapshot|..] == prior.rows[|snapshot|..] + [NewRow(prior.nextId, item, now)];
    }
  }

  /** The rows a batch overwrites: each by the last item that matched it. */
  lemma {:induction false} SaveAllOverwrites(snapshot: seq<Row>, nextId: nat, items: seq<Item>, now: Timestamp)
    ensures var r := SaveAll(snapshot, Table(snapshot, nextId), items, now);
      forall i :: 0 <= i < |snapshot| ==> r.rows[i] == RowAfter(snapshot[i], LastHit(snapshot, items, i), now)
  {
    if items != [] {
      var init := items[..|items| - 1];
      var item := items[|items| - 1];
      SaveAllOverwrites(snapshot, nextId, init, now);
      var r := SaveAll(snapshot, Table(snapshot, nextId), items, now);
      match FindKey(snapshot, item.billNo, item.source)
      case Some(k) =>
        forall i | 0 <= i < |snapshot|
          ensures r.rows[i] == RowAfter(snapshot[i], LastHit(snapshot, items, i), now)
        {
          if i == k {
            match LastHit(snapshot, init, i)
            case None =>
            case Some(earlier) => UpdatedShape(snapshot[i], earlier, item, now, now);
          }
        }
      case None =>
    }
  }

  lemma {:induction false} InsertRowsIds(items: seq<Item>, firstId: nat, now: Timestamp)
    ensures forall j :: 0 <= j < |items| ==>
      InsertRows(items, firstId, now)[j] == NewRow(firstId + j, items[j], now)
  {
    if items != [] {
      InsertRowsIds(items[..|items| - 1], firstId, now);
    }
  }

  /** A batch keeps ids unique and increasing. */
  lemma SaveKeepsIdsOrdered(t: Table, items: seq<Item>, now: Timestamp)
    requires IdsOrdered(t.rows, t.nextId)
    ensures IdsOrdered(Save(t, items, now).rows, Save(t, items, now).nextId)
  {
    var s := t.rows;
    var r := Save(t, items, now);
    SaveAllRows(s, t.nextId, items, now);
    var u := Unmatched(s, items);
    InsertRowsIds(u, t.nextId, now);
    forall i | 0 <= i < |r.rows|
      ensures (i < |s| ==> r.rows[i].id == s[i].id)
      ensures (i >= |s| ==> r.rows[i].id == t.nextId + (i - |s|))
    {
      if i < |s| {
        match LastHit(s, items, i)
        case None =>
        case Some(item) => UpdatedShape(s[i], item, item, now, now);
      } else {
        assert r.rows[i] == r.rows[|s|..][i - |s|];
      }
    }
  }

  /** The count of items that insert is the count of unmatched items: two
      items with the same new key in one batch both insert. */
  lemma SameNewKeyInsertsTwice(t: Table, a: Item, b: Item, now: Timestamp)
    requires a.billNo == b.billNo && a.source == b.source
    requires FindKey(t.rows, a.billNo, a.source).None?
    ensures |Save(t, [a, b], now).rows| == |t.rows| + 2
    ensures Save(t, [a, b], now).rows[|t.rows|].billNo == Save(t, [a, b], now).rows[|t.rows| + 1].billNo == a.billNo
  {
    SaveAllRows(t.rows, t.nextId, [a, b], now);
    assert [a, b][..1] == [a];
    assert [a][..0] == [];
    var r := Save(t, [a, b], now);
    InsertRowsIds(Unmatched(t.rows, [a, b]), t.nextId, now);
    assert r.rows[|t.rows|] == r.rows[|t.rows|..][0];
    assert r.rows[|t.rows| + 1] == r.rows[|t.rows|..][1];
  }

  /** Executive-branch items carry no bill number, so once the table holds
      one executive-branch row every executive-branch item of a batch lands
      on the first such row: nothing is inserted and that row ends up
      holding the batch's last item. */
  lemma {:induction false} SharedAdminKey(t: Table, items: seq<Item>, now: Timestamp, k: nat)
    requires FindKey(t.rows, None, Admin) == Some(k)
    requires forall item :: item in items ==> item.billNo.None? && item.source == Admin
    requires items != []
    ensures |Save(t, items, now).rows| == |t.rows|
    ensures Save(t, items, now).rows[k] == Updated(t.rows[k], items[|items| - 1], now)
    ensures forall i :: 0 <= i < |t.rows| && i != k ==> Save(t, items, now).rows[i] == t.rows[i]
  {
    SaveAllRows(t.rows, t.nextId, items, now);
    NoneUnmatched(t.rows, items, k);
    forall i | 0 <= i < |t.rows| && i != k
      ensures LastHit(t.rows, items, i).None?
    {
      LastHitOther(t.rows, items, k, i);
    }
    var last := items[|items| - 1];
    assert LastHit(t.rows, items, k) == Some(last);
  }

  lemma {:induction false} NoneUnmatched(snapshot: seq<Row>, items: seq<Item>, k: nat)
    requires FindKey(snapshot, None, Admin) == Some(k)
    requires forall item :: item in items ==> item.billNo.None? && item.source == Admin
    ensures Unmatched(snapshot, items) == []
  {
    if items != [] {
      assert items[|items| - 1] in items;
      forall item | item in items[..|items| - 1]
        ensures item.billNo.None? && item.source == Admin
      {
        assert item in items;
      }
      NoneUnmatched(snapshot, items[..|items| - 1], k);
    }
  }

  lemma {:induction false} LastHitOther(snapshot: seq<Row>, items: seq<Item>, k: nat, i: nat)
    requires FindKey(snapshot, None, Admin) == Some(k) && i != k
    requires forall item :: item in items ==> item.billNo.None? && item.source == Admin
    ensures LastHit(snapshot, items, i).None?
  {
    if items != [] {
      assert items[|items| - 1] in items;
      forall item | item in items[..|items| - 1]
        ensures item.billNo.None? && item.source == Admin
      {
        assert item in items;
      }
      LastHitOther(snapshot, items[..|items| - 1], k, i);
    }
  }

  // ---------------------------------------------------------------------
  // Reads

  /** Newest first: `createdAt` never increases along the sequence. */
  predicate NewestFirst(rows: seq<Row>) {
    forall i, j :: 0 <= i < j < |rows| ==> rows[i].createdAt >= rows[j].createdAt
  }

  /** `rows` with `row` placed before the first row no newer than it. */
  function InsertByDate(row: Row, rows: seq<Row>): (r: seq<Row>)
    ensures |r| == |rows| + 1
    ensures multiset(r) == multiset(rows) + multiset{row}
    ensures forall x :: x in r <==> x == row || x in rows
  {
    if rows == [] || rows[0].createdAt <= row.createdAt then [row] + rows
    else
      assert rows == [rows[0]] + rows[1..];
      [rows[0]] + InsertByDate(row, rows[1..])
  }

  lemma {:induction false} InsertByDateSorted(row: Row, rows: seq<Row>)
    requires NewestFirst(rows)
    ensures NewestFirst(InsertByDate(row, rows))
  {
    if !(rows == [] || rows[0].createdAt <= row.createdAt) {
      InsertByDateSorted(row, rows[1..]);
      var tail := InsertByDate(row, rows[1..]);
      forall j | 0 <= j < |tail|
        ensures rows[0].createdAt >= tail[j].createdAt
      {
        assert tail[j] in tail;
        if tail[j] != row {
          var k :| 0 <= k < |rows[1..]| && rows[1..][k] == tail[j];
          assert rows[k + 1] == tail[j];
        }
      }
    }
  }

  /** `ORDER BY created_at DESC`. */
  function SortNewestFirst(rows: seq<Row>): (r: seq<Row>)
    ensures |r| == |rows|
    ensures multiset(r) == multiset(rows)
  {
    if rows == [] then []
    else
      assert rows == [rows[0]] + rows[1..];
      InsertByDate(rows[0], SortNewestFirst(rows[1..]))
  }

  /** The sort orders rows newest first and loses or adds none. */
  lemma {:induction false} SortNewestFirstSorted(rows: seq<Row>)
    ensures NewestFirst(SortNewestFirst(rows))
    ensures multiset(SortNewestFirst(rows)) == multiset(rows)
  {
    if rows != [] {
      SortNewestFirstSorted(rows[1..]);
      InsertByDateSorted(rows[0], SortNewestFirst(rows[1..]));
    }
  }

  /** `if source:` — an absent or empty source filters nothing. */
  predicate SourceMatches(row: Row, source: Option<string>) {
    source.None? || source.value == "" || row.source == source.value
  }

  /** The active rows passing the source filter, in table order. */
  function ActiveOf(rows: seq<Row>, source: Option<string>): (r: seq<Row>)
    ensures |r| <= |rows|
    ensures forall x :: x in r <==> x in rows && x.isActive && SourceMatches(x, source)
  {
    if rows == [] then []
    else
      var prior := ActiveOf(rows[..|rows| - 1], source);
      var row := rows[|rows| - 1];
      assert rows == rows[..|rows| - 1] + [row];
      if row.isActive && SourceMatches(row, source) then prior + [row] else prior
  }

  function Take(rows: seq<Row>, limit: nat): seq<Row> {
    if limit < |rows| then rows[..limit] else rows
  }

  /** The rows `get_legislation_data` returns. */
  function Query(rows: seq<Row>, source: Option<string>, limit: nat): seq<Row> {
    Take(SortNewestFirst(ActiveOf(rows, source)), limit)
  }

  /** A prefix of a newest-first sequence is newest first, and nothing
      after the prefix is newer than anything in it. */
  lemma TakeNewest(sorted: seq<Row>, limit: nat)
    requires NewestFirst(sorted)
    ensures Take(sorted, limit) == sorted[..|Take(sorted, limit)|]
    ensures NewestFirst(Take(sorted, limit))
    ensures forall x, y :: x in sorted && x !in Take(sorted, limit) && y in Take(sorted, limit) ==> x.createdAt <= y.createdAt
  {
    var q := Take(sorted, limit);
    forall x, y | x in sorted && x !in q && y in q
      ensures x.createdAt <= y.createdAt
    {
      var j :| 0 <= j < |sorted| && sorted[j] == x;
      var i :| 0 <= i < |q| && q[i] == y;
    }
  }

  /** `get_legislation_data` returns only active rows of the requested
      source, newest first, as many as the limit allows, and a row it
      leaves out is never newer than one it returns. */
  lemma QueryShape(rows: seq<Row>, source: Option<string>, limit: nat)
    ensures var q := Query(rows, source, limit);
      && NewestFirst(q)
      && |q| == (if limit < |ActiveOf(rows, source)| then limit else |ActiveOf(rows, source)|)
      && (forall x :: x in q ==> x in rows && x.isActive && SourceMatches(x, source))
      && (forall x, y :: x in rows && x.isActive && SourceMatches(x, source) && x !in q && y in q ==>
            x.createdAt <= y.createdAt)
  {
    var active := ActiveOf(rows, source);
    var sorted := SortNewestFirst(active);
    SortNewestFirstSorted(active);
    SameMembers(active, sorted);
    TakeNewest(sorted, limit);
    var q := Query(rows, source, limit);
    forall x | x in q
      ensures x in sorted
    {
      var i :| 0 <= i < |q| && q[i] == x;
      assert sorted[i] == x;
    }
  }

  /** Sequences with the same multiset have the same members. */
  lemma SameMembers(a: seq<Row>, b: seq<Row>)
    requires multiset(a) == multiset(b)
    ensures forall x :: x in a <==> x in b
  {
    forall x
      ensures x in a <==> x in b
    {
      assert x in a <==> x in multiset(a);
      assert x in b <==> x in multiset(b);
    }
  }

  /** The table's rows read through with no limit: the active rows of
      `rows` that satisfy `keep`. */
  function Filter(rows: seq<Row>, keep: Row -> bool): (r: seq<Row>)
    ensures forall x :: x in r <==> x in rows && keep(x)
  {
    if rows == [] then []
    else
      var prior := Filter(rows[..|rows| - 1], keep);
      var row := rows[|rows| - 1];
      assert rows == rows[..|rows| - 1] + [row];
      if keep(row) then prior + [row] else prior
  }

  /** `get_recent_data`'s filter: active rows created at or after the cutoff. */
  predicate IsRecent(row: Row, cutoff: Timestamp) {
    row.isActive && row.createdAt >= cutoff
  }

  /** `search_legislation`'s filter: active rows of the source whose title,
      committee or content holds the keyword. */
  predicate IsHit(row: Row, keyword: string, source: Option<string>) {
    && row.isActive
    && (Contains(row.title, keyword) || Contains(row.committee, keyword) || Contains(row.content, keyword))
    && SourceMatches(row, source)
  }

  /** A newest-first selection holds exactly the selected rows. */
  lemma SortedSelection(rows: seq<Row>, keep: Row -> bool)
    ensures var r := SortNewestFirst(Filter(rows, keep));
      NewestFirst(r) && forall x :: x in r <==> x in rows && keep(x)
  {
    var f := Filter(rows, keep);
    SortNewestFirstSorted(f);
    SameMembers(f, SortNewestFirst(f));
  }

  /** `get_recent_data`'s rows. */
  function RecentRows(rows: seq<Row>, cutoff: Timestamp): seq<Row> {
    SortNewestFirst(Filter(rows, (x: Row) => IsRecent(x, cutoff)))
  }

  /** The recent rows are exactly the active rows created at or after the
      cutoff, newest first. */
  lemma RecentRowsShape(rows: seq<Row>, cutoff: Timestamp)
    ensures var r := RecentRows(rows, cutoff);
      NewestFirst(r) && forall x :: x in r <==> x in rows && x.isActive && x.createdAt >= cutoff
  {
    SortedSelection(rows, (x: Row) => IsRecent(x, cutoff));
  }

  /** `search_legislation`'s rows. */
  function SearchHits(rows: seq<Row>, keyword: string, source: Option<string>): seq<Row> {
    SortNewestFirst(Filter(rows, (x: Row) => IsHit(x, keyword, source)))
  }

  /** The search hits are exactly the active rows of the source holding the
      keyword in title, committee or content, newest first. */
  lemma SearchHitsShape(rows: seq<Row>, keyword: string, source: Option<string>)
    ensures var r := SearchHits(rows, keyword, source);
      && NewestFirst(r)
      && forall x :: x in r <==> x in rows && IsHit(x, keyword, source)
  {
    SortedSelection(rows, (x: Row) => IsHit(x, keyword, source));
  }

  function CountWhere(rows: seq<Row>, keep: Row -> bool): nat {
    |Filter(rows, keep)|
  }

  /** `get_statistics`. */
  datatype Statistics = Statistics(total: nat, national: nat, admin: nat)

  lemma {:induction false} FilterSplit(rows: seq<Row>, a: Row -> bool, b: Row -> bool, both: Row -> bool)
    requires forall x :: both(x) <==> a(x) || b(x)
    requires forall x :: !(a(x) && b(x))
    ensures |Filter(rows, both)| == |Filter(rows, a)| + |Filter(rows, b)|
  {
    if rows != [] {
      FilterSplit(rows[..|rows| - 1], a, b, both);
    }
  }

  lemma {:induction false} FilterMonotone(rows: seq<Row>, a: Row -> bool, b: Row -> bool)
    requires forall x :: a(x) ==> b(x)
    ensures |Filter(rows, a)| <= |Filter(rows, b)|
  {
    if rows != [] {
      FilterMonotone(rows[..|rows| - 1], a, b);
    }
  }

  /** The active rows of the two sources together never outnumber the
      active rows, and match them exactly when every row comes from one of
      the two sources. */
  lemma StatisticsAddUp(rows: seq<Row>)
    ensures CountWhere(rows, (x: Row) => x.isActive && x.source == National) + CountWhere(rows, (x: Row) => x.isActive && x.source == Admin)
      <= CountWhere(rows, (x: Row) => x.isActive)
    ensures (forall i :: 0 <= i < |rows| ==> rows[i].source == National || rows[i].source == Admin) ==>
      CountWhere(rows, (x: Row) => x.isActive && x.source == National) + CountWhere(rows, (x: Row) => x.isActive && x.source == Admin)
      == CountWhere(rows, (x: Row) => x.isActive)
  {
    var nat_ := (x: Row) => x.isActive && x.source == National;
    var adm := (x: Row) => x.isActive && x.source == Admin;
    var either := (x: Row) => x.isActive && (x.source == National || x.source == Admin);
    FilterSplit(rows, nat_, adm, either);
    FilterMonotone(rows, either, (x: Row) => x.isActive);
    if forall i :: 0 <= i < |rows| ==> rows[i].source == National || rows[i].source == Admin {
      FilterSame(rows, either, (x: Row) => x.isActive);
    }
  }

  lemma {:induction false} FilterSame(rows: seq<Row>, a: Row -> bool, b: Row -> bool)
    requires forall i :: 0 <= i < |rows| ==> (a(rows[i]) <==> b(rows[i]))
    ensures Filter(rows, a) == Filter(rows, b)
  {
    if rows != [] {
      FilterSame(rows[..|rows| - 1], a, b);
    }
  }

  // ---------------------------------------------------------------------
  // Deletion and deactivation

  /** The table after deleting every row of `source`. */
  function WithoutSource(rows: seq<Row>, source: string): seq<Row> {
    Filter(rows, (x: Row) => x.source != source)
  }

  /** Deleting by source removes exactly that source's rows, keeps the
      others in order, and the count removed is the count that source had. */
  lemma DeleteShape(rows: seq<Row>, source: string)
    ensures forall x :: x in WithoutSource(rows, source) <==> x in rows && x.source != source
    ensures |rows| - |WithoutSource(rows, source)| == CountWhere(rows, (x: Row) => x.source == source)
  {
    FilterSplit(rows, (x: Row) => x.source == source, (x: Row) => x.source != source, (x: Row) => true);
    FilterSame(rows, (x: Row) => true, (x: Row) => true);
    AllKept(rows);
  }

  lemma {:induction false} AllKept(rows: seq<Row>)
    ensures Filter(rows, (x: Row) => true) == rows
  {
    if rows != [] {
      AllKept(rows[..|rows| - 1]);
    }
  }

  /** Whether `cleanup_old_data` deactivates a row. */
  predicate IsStale(row: Row, cutoff: Timestamp) {
    row.isActive && row.createdAt < cutoff
  }

  function Deactivated(row: Row, cutoff: Timestamp, now: Timestamp): Row {
    if IsStale(row, cutoff) then row.(isActive := false, updatedAt := now) else row
  }

  function DeactivateAll(rows: seq<Row>, cutoff: Timestamp, now: Timestamp): (r: seq<Row>)
    ensures |r| == |rows|
  {
    if rows == [] then [] else DeactivateAll(rows[..|rows| - 1], cutoff, now) + [Deactivated(rows[|rows| - 1], cutoff, now)]
  }

  /** Cleanup changes exactly the active rows older than the cutoff: they
      become inactive with `updatedAt == now` and nothing else about them
      changes; every other row stays as it was; no active row older than
      the cutoff is left. */
  lemma {:induction false} DeactivateAllShape(rows: seq<Row>, cutoff: Timestamp, now: Timestamp)
    ensures forall i :: 0 <= i < |rows| ==>
      DeactivateAll(rows, cutoff, now)[i] ==
        if IsStale(rows[i], cutoff) then rows[i].(isActive := false, updatedAt := now) else rows[i]
    ensures forall i :: 0 <= i < |rows| ==> !IsStale(DeactivateAll(rows, cutoff, now)[i], cutoff)
  {
    if rows != [] {
      DeactivateAllShape(rows[..|rows| - 1], cutoff, now);
    }
  }

  // ---------------------------------------------------------------------
  // The service

  /** An item as read back from the table. */
  function ToItem(row: Row): Item {
    Item(Some(row.id), row.title, row.committee, row.proposer, row.startDate, row.endDate, row.content,
         row.linkUrl, row.billNo, row.source, Some(row.createdAt))
  }

  function ToItems(rows: seq<Row>): (r: seq<Item>)
    ensures |r| == |rows|
    ensures forall i :: 0 <= i < |rows| ==> r[i] == ToItem(rows[i])
  {
    if rows == [] then [] else ToItems(rows[..|rows| - 1]) + [ToItem(rows[|rows| - 1])]
  }

  /** The `to_dict` conversion every read applies to the rows it fetched,
      one item per row, in order. */
  method ReadItems(dbItems: seq<Row>) returns (items: seq<Item>)
    ensures items == ToItems(dbItems)
  {
    items := [];
    for i := 0 to |dbItems|
      invariant items == ToItems(dbItems[..i])
    {
      assert dbItems[..i + 1][..i] == dbItems[..i];
      items := items + [ToItem(dbItems[i])];
    }
    assert dbItems[..|dbItems|] == dbItems;
  }

  const SecondsPerHour: int := 3600
  const SecondsPerDay: int := 86400

  /** The database session as a table held in memory. A commit that fails is
      modelled by `commitOk == false`: the session rolls back and the table
      is as it was. `now` is the clock reading the source takes with
      `datetime.utcnow()`. */
  class DatabaseService {
    var rows: seq<Row>
    var nextId: nat

    ghost predicate Valid()
      reads this
    {
      IdsOrdered(rows, nextId)
    }

    constructor ()
      ensures Valid() && rows == [] && nextId == 1
    {
      rows := [];
      nextId := 1;
    }

    /** `save_legislation_data`: upsert every item against the table as it
        was before the batch, then commit; the count returned is the number
        of items. A failing commit rolls the whole batch back and
        re-raises. */
    method SaveLegislationData(items: seq<Item>, now: Timestamp, commitOk: bool) returns (r: Result<nat>)
      requires Valid()
      modifies this
      ensures Valid()
      ensures commitOk ==> r == Ok(|items|) && Table(rows, nextId) == Save(old(Table(rows, nextId)), items, now)
      ensures !commitOk ==> r.Err? && rows == old(rows) && nextId == old(nextId)
    {
      var pending := rows;
      var id := nextId;
      var savedCount: nat := 0;
      for i := 0 to |items|
        invariant Table(pending, id) == SaveAll(rows, Table(rows, nextId), items[..i], now)
        invariant savedCount == i
      {
        var item := items[i];
        assert items[..i + 1][..i] == items[..i];
        var existing := FindKey(rows, item.billNo, item.source);
        if existing.Some? {
          var k := existing.value;
          pending := pending[k := Updated(pending[k], item, now)];
        } else {
          pending := pending + [NewRow(id, item, now)];
          id := id + 1;
        }
        savedCount := savedCount + 1;
      }
      assert items[..|items|] == items;
      if !commitOk {
        return Err("database save failed");
      }
      SaveKeepsIdsOrdered(Table(rows, nextId), items, now);
      rows, nextId := pending, id;
      return Ok(savedCount);
    }

    /** `get_legislation_data`: the active rows of `source` (all sources
        when it is absent or empty), newest first, at most `limit`. A
        failing read (`readOk == false`) is caught and answers `[]`. */
    method GetLegislationData(source: Option<string>, limit: nat, readOk: bool) returns (items: seq<Item>)
      ensures readOk ==> items == ToItems(Query(rows, source, limit))
      ensures !readOk ==> items == []
    {
      if !readOk {
        return [];
      }
      var dbItems := Query(rows, source, limit);
      items := ReadItems(dbItems);
    }

    /** `get_recent_data`: the active rows created in the last `hours`
        hours, newest first; a failing read answers `[]`. */
    method GetRecentData(hours: int, now: Timestamp, readOk: bool) returns (items: seq<Item>)
      ensures var cutoff := now - hours * SecondsPerHour;
        readOk ==> items == ToItems(RecentRows(rows, cutoff))
      ensures !readOk ==> items == []
    {
      if !readOk {
        return [];
      }
      var cutoff := now - hours * SecondsPerHour;
      var dbItems := RecentRows(rows, cutoff);
      items := ReadItems(dbItems);
    }

    /** `search_legislation`: the active rows whose title, committee or
        content holds `keyword`, of `source` when one is given, newest
        first; a failing read answers `[]`. */
    method SearchLegislation(keyword: string, source: Option<string>, readOk: bool) returns (items: seq<Item>)
      ensures readOk ==> items == ToItems(SearchHits(rows, keyword, source))
      ensures !readOk ==> items == []
    {
      if !readOk {
        return [];
      }
      var dbItems := SearchHits(rows, keyword, source);
      items := ReadItems(dbItems);
    }

    /** `get_statistics`: the number of active rows, and of active rows of
        each source; a failing read answers zero for all three. */
    method GetStatistics(readOk: bool) returns (stats: Statistics)
      ensures readOk ==> stats.total == CountWhere(rows, (x: Row) => x.isActive)
      ensures readOk ==> stats.national == CountWhere(rows, (x: Row) => x.isActive && x.source == National)
      ensures readOk ==> stats.admin == CountWhere(rows, (x: Row) => x.isActive && x.source == Admin)
      ensures !readOk ==> stats == Statistics(0, 0, 0)
      ensures stats.national + stats.admin <= stats.total
    {
      if !readOk {
        return Statistics(0, 0, 0);
      }
      StatisticsAddUp(rows);
      stats := Statistics(CountWhere(rows, (x: Row) => x.isActive),
                          CountWhere(rows, (x: Row) => x.isActive && x.source == National),
                          CountWhere(rows, (x: Row) => x.isActive && x.source == Admin));
    }

    /** `delete_legislation_by_source`: remove every row of `source` and
        return how many there were; a failing commit rolls back and
        returns 0. */
    method DeleteLegislationBySource(source: string, commitOk: bool) returns (deletedCount: nat)
      requires Valid()
      modifies this
      ensures Valid()
      ensures nextId == old(nextId)
      ensures commitOk ==> rows == WithoutSource(old(rows), source) && deletedCount == |old(rows)| - |rows|
      ensures !commitOk ==> rows == old(rows) && deletedCount == 0
    {
      var kept := WithoutSource(rows, source);
      if !commitOk {
        return 0;
      }
      DeleteShape(rows, source);
      WithoutSourceOrdered(rows, nextId, source);
      deletedCount := |rows| - |kept|;
      rows := kept;
    }

    /** `cleanup_old_data`: mark inactive, stamped `now`, every active row
        created more than `days` days before `now`; a failing commit rolls
        back. */
    method CleanupOldData(days: int, now: Timestamp, commitOk: bool)
      requires Valid()
      modifies this
      ensures Valid()
      ensures nextId == old(nextId)
      ensures commitOk ==> rows == DeactivateAll(old(rows), now - days * SecondsPerDay, now)
      ensures !commitOk ==> rows == old(rows)
    {
      var cutoff := now - days * SecondsPerDay;
      var cleaned: seq<Row> := [];
      for i := 0 to |rows|
        invariant cleaned == DeactivateAll(rows[..i], cutoff, now)
      {
        assert rows[..i + 1][..i] == rows[..i];
        var item := rows[i];
        if item.isActive && item.createdAt < cutoff {
          item := item.(isActive := false, updatedAt := now);
        }
        cleaned := cleaned + [item];
      }
      assert rows[..|rows|] == rows;
      if !commitOk {
        return;
      }
      DeactivateAllShape(rows, cutoff, now);
      rows := cleaned;
    }
  }

  lemma {:induction false} WithoutSourceOrdered(rows: seq<Row>, nextId: nat, source: string)
    requires IdsOrdered(rows, nextId)
    ensures IdsOrdered(WithoutSource(rows, source), nextId)
  {
    if rows != [] {
      var init := rows[..|rows| - 1];
      WithoutSourceOrdered(init, nextId, source);
      var prior := WithoutSource(init, source);
      forall x | x in prior
        ensures x.id < rows[|rows| - 1].id
      {
        var i :| 0 <= i < |init| && init[i] == x;
      }
    }
  }
}

=== FILE: dates.dfy ===
/** Calendar dates as Python's `datetime.date` sees them: validity (the range
    `date(y, m, d)` and `strptime` accept), comparison, and the
    `strftime("%Y-%m-%d")` rendering. */
module Dates {
  import opened Strings

  datatype Date = Date(year: int, month: int, day: int)

  predicate IsLeapYear(y: int) {
    y % 4 == 0 && (y % 100 != 0 || y % 400 == 0)
  }

  function DaysInMonth(y: int, m: int): (n: int)
    requires 1 <= m <= 12
    ensures 28 <= n <= 31
    ensures m == 2 ==> (n == 29 <==> IsLeapYear(y))
  {
    if m == 2 then (if IsLeapYear(y) then 29 else 28)
    else if m == 4 || m == 6 || m == 9 || m == 11 then 30
    else 31
  }

  /** The dates `datetime.date` can represent (years 1 to 9999). */
  predicate IsValid(d: Date) {
    1 <= d.year <= 9999 && 1 <= d.month <= 12 && 1 <= d.day <= DaysInMonth(d.year, d.month)
  }

  /** `a < b` on `datetime.date`: by year, then month, then day. */
  predicate IsBefore(a: Date, b: Date) {
    a.year < b.year || (a.year == b.year && (a.month < b.month || (a.month == b.month && a.day < b.day)))
  }

  /** Dates that fit the four-digit year and two-digit month and day fields. */
  predicate Renderable(d: Date) {
    0 <= d.year <= 9999 && 0 <= d.month <= 99 && 0 <= d.day <= 99
  }

  function DigitChar(n: int): (c: char)
    requires 0 <= n <= 9
    ensures IsDigit(c)
  {
    ('0' as int + n) as char
  }

  function DigitValue(c: char): (n: int)
    requires IsDigit(c)
    ensures 0 <= n <= 9
  {
    c as int - '0' as int
  }

  predicate AllDigits(s: string) {
    forall i :: 0 <= i < |s| ==> IsDigit(s[i])
  }

  /** Python's `int(s)` on a string of ASCII digits. */
  function Value(s: string): (n: nat)
    requires AllDigits(s)
    ensures |s| <= 1 ==> n <= 9
    ensures |s| <= 2 ==> n <= 99
    ensures |s| <= 3 ==> n <= 999
    ensures |s| <= 4 ==> n <= 9999
  {
    if s == [] then 0 else 10 * Value(s[..|s| - 1]) + DigitValue(s[|s| - 1])
  }

  /** `format(n, "02d")` for `n` below 100. */
  function Pad2(n: int): (r: string)
    requires 0 <= n <= 99
    ensures |r| == 2 && AllDigits(r)
  {
    [DigitChar(n / 10), DigitChar(n % 10)]
  }

  /** `%Y`: the year as four digits. */
  function Pad4(n: int): (r: string)
    requires 0 <= n <= 9999
    ensures |r| == 4 && AllDigits(r)
  {
    Pad2(n / 100) + Pad2(n % 100)
  }

  /** `d.strftime("%Y-%m-%d")`. */
  function Render(d: Date): (r: string)
    requires Renderable(d)
    ensures |r| == 10 && r[4] == '-' && r[7] == '-'
    ensures AllDigits(r[..4]) && AllDigits(r[5..7]) && AllDigits(r[8..])
  {
    var r := Pad4(d.year) + "-" + Pad2(d.month) + "-" + Pad2(d.day);
    assert r[..4] == Pad4(d.year) && r[5..7] == Pad2(d.month) && r[8..] == Pad2(d.day);
    r
  }

  lemma Value2(s: string)
    requires |s| == 2 && AllDigits(s)
    ensures Value(s) == 10 * DigitValue(s[0]) + DigitValue(s[1])
  {
    var h := s[..1];
    assert h[..0] == [] && h[0] == s[0];
    assert Value(h) == DigitValue(s[0]);
    assert s[..|s| - 1] == h;
  }

  lemma Value4(s: string)
    requires |s| == 4 && AllDigits(s)
    ensures Value(s) == 1000 * DigitValue(s[0]) + 100 * DigitValue(s[1]) + 10 * DigitValue(s[2]) + DigitValue(s[3])
  {
    Value2(s[..2]);
    assert s[..3][..2] == s[..2];
    assert s[..4] == s;
  }

  lemma Pad2Value(n: int)
    requires 0 <= n <= 99
    ensures Value(Pad2(n)) == n
  {
    Value2(Pad2(n));
  }

  lemma Pad4Value(n: int)
    requires 0 <= n <= 9999
    ensures Value(Pad4(n)) == n
  {
    var s, hi, lo := Pad4(n), Pad2(n / 100), Pad2(n % 100);
    Value4(s);
    Value2(hi);
    Value2(lo);
    assert s[0] == hi[0] && s[1] == hi[1] && s[2] == lo[0] && s[3] == lo[1];
    Pad2Value(n / 100);
    Pad2Value(n % 100);
  }

  /** Reading the three fields of a rendered date back gives the date. */
  lemma {:induction false} RenderRoundTrip(d: Date)
    requires Renderable(d)
    ensures Value(Render(d)[..4]) == d.year
    ensures Value(Render(d)[5..7]) == d.month
    ensures Value(Render(d)[8..]) == d.day
  {
    var r := Render(d);
    assert r[..4] == Pad4(d.year) && r[5..7] == Pad2(d.month) && r[8..] == Pad2(d.day);
    Pad4Value(d.year);
    Pad2Value(d.month);
    Pad2Value(d.day);
  }

  /** Two dates render alike exactly when they are equal, so comparing
      rendered strings compares dates. */
  lemma RenderInjective(a: Date, b: Date)
    requires Renderable(a) && Renderable(b)
    ensures Render(a) == Render(b) <==> a == b
  {
    if Render(a) == Render(b) {
      RenderRoundTrip(a);
      RenderRoundTrip(b);
    }
  }
}

=== FILE: handlers.dfy ===
/** The cache-aside request handlers of the HTTP API: serve what the store
    read returns, and crawl (then store) only when it returns nothing, which
    includes a failing read. The crawl results and the read and commit
    outcomes are parameters: `crawled` is what the collection service would
    return if asked. */
module Handlers {
  import opened Outcomes
  import opened Records
  import opened DatabaseService

  /** The limit `get_legislation_data` uses by default. */
  const DefaultLimit: nat := 100

  /** `LegislationResponse` without its message and timestamp. */
  datatype Response = Response(success: bool, data: seq<Item>, totalCount: nat)

  /** `/refresh`'s answer. */
  datatype RefreshReport = RefreshReport(success: bool, nationalCount: nat, adminCount: nat, totalCount: nat)

  /** What the store serves for one source. */
  function Stored(rows: seq<Row>, source: string): seq<Item> {
    ToItems(Query(rows, Some(source), DefaultLimit))
  }

  /** What a store read returns: a failing read is caught and answers `[]`,
      which the handlers cannot tell from an empty store. */
  function ReadStored(rows: seq<Row>, source: string, readOk: bool): (r: seq<Item>)
    ensures !readOk ==> r == []
  {
    if readOk then Stored(rows, source) else []
  }

  /** The data a cache-aside read answers with. */
  function Served(stored: seq<Item>, crawled: seq<Item>): seq<Item> {
    if stored != [] then stored else crawled
  }

  /** The store serves a source exactly when it holds an active row of it. */
  lemma StoredNonEmpty(rows: seq<Row>, source: string)
    requires source != ""
    ensures Stored(rows, source) != [] <==> exists i :: 0 <= i < |rows| && rows[i].isActive && rows[i].source == source
  {
    QueryShape(rows, Some(source), DefaultLimit);
    var active := ActiveOf(rows, Some(source));
    if i :| 0 <= i < |rows| && rows[i].isActive && rows[i].source == source {
      assert rows[i] in active;
    }
  }

  /** After a fallback save of a non-empty crawl whose items all carry the
      source, the store serves that source: the next read does not crawl. */
  lemma FallbackWarmsStore(t: Table, crawled: seq<Item>, source: string, now: Timestamp)
    requires source != "" && crawled != []
    requires forall item :: item in crawled ==> item.source == source
    ensures Stored(Save(t, crawled, now).rows, source) != []
  {
    var r := Save(t, crawled, now);
    SaveAllRows(t.rows, t.nextId, crawled, now);
    var first := crawled[0];
    assert first in crawled;
    match FindKey(t.rows, first.billNo, first.source)
    case Some(k) =>
      var hit := LastHit(t.rows, crawled, k);
      assert hit.Some? by {
        FirstHitSeen(t.rows, crawled, k);
      }
      UpdatedShape(t.rows[k], hit.value, hit.value, now, now);
      assert r.rows[k].isActive && r.rows[k].source == source;
      StoredNonEmpty(r.rows, source);
    case None =>
      FirstUnmatched(t.rows, crawled);
      InsertRowsIds(Unmatched(t.rows, crawled), t.nextId, now);
      var u := Unmatched(t.rows, crawled);
      assert r.rows[|t.rows|] == r.rows[|t.rows|..][0];
      assert u[0] in crawled;
      assert r.rows[|t.rows|].isActive && r.rows[|t.rows|].source == source;
      StoredNonEmpty(r.rows, source);
  }

  lemma {:induction false} FirstHitSeen(snapshot: seq<Row>, items: seq<Item>, k: nat)
    requires items != [] && FindKey(snapshot, items[0].billNo, items[0].source) == Some(k)
    ensures LastHit(snapshot, items, k).Some?
  {
    if |items| > 1 {
      FirstHitSeen(snapshot, items[..|items| - 1], k);
    }
  }

  lemma {:induction false} FirstUnmatched(snapshot: seq<Row>, items: seq<Item>)
    requires items != [] && FindKey(snapshot, items[0].billNo, items[0].source).None?
    ensures Unmatched(snapshot, items) != [] && Unmatched(snapshot, items)[0] == items[0]
  {
    if |items| > 1 {
      FirstUnmatched(snapshot, items[..|items| - 1]);
    }
  }

  /** `get_legislation_by_source`, which the store class does not define;
      modelled as `get_legislation_data(source)` with its default limit. */
  method GetLegislationBySource(db: DatabaseService, source: string, readOk: bool) returns (items: seq<Item>)
    ensures items == ReadStored(db.rows, source, readOk)
  {
    items := db.GetLegislationData(Some(source), DefaultLimit, readOk);
  }

  /** A fallback fails only when the store had nothing, the crawl returned
      something and its save did not commit. */
  predicate FallbackFails(stored: seq<Item>, crawled: seq<Item>, commitOk: bool) {
    stored == [] && crawled != [] && !commitOk
  }

  /** The table after one source's fallback: it changes only when the store
      had nothing, the crawl returned something and the save committed. */
  function AfterFallback(t: Table, stored: seq<Item>, crawled: seq<Item>, now: Timestamp, commitOk: bool): Table {
    if stored == [] && crawled != [] && commitOk then Save(t, crawled, now) else t
  }

  /** The fallback of one source: keep what the store returned, or else take
      the crawl and save it when it is non-empty. A failing save surfaces
      as an error. */
  method Fallback(db: DatabaseService, stored: seq<Item>, crawled: seq<Item>, now: Timestamp, commitOk: bool)
    returns (r: Result<seq<Item>>)
    requires db.Valid()
    modifies db
    ensures db.Valid()
    ensures r.Err? <==> FallbackFails(stored, crawled, commitOk)
    ensures r.Ok? ==> r.value == Served(stored, crawled)
    ensures Table(db.rows, db.nextId) == AfterFallback(old(Table(db.rows, db.nextId)), stored, crawled, now, commitOk)
  {
    var data := stored;
    if data == [] {
      data := crawled;
      if data != [] {
        var saved := db.SaveLegislationData(data, now, commitOk);
        if saved.Err? {
          return Err(saved.message);
        }
      }
    }
    return Ok(data);
  }

  /** The `/national` and `/admin` handlers: read the source from the
      store, fall back to the crawl when the store has none. */
  method GetSourceLegislation(db: DatabaseService, source: string, crawled: seq<Item>, now: Timestamp,
                              readOk: bool, commitOk: bool)
    returns (r: Result<Response>)
    requires db.Valid()
    modifies db
    ensures db.Valid()
    ensures var stored := ReadStored(old(db.rows), source, readOk);
      && (stored != [] || crawled == [] ==>
            && r == Ok(Response(true, Served(stored, crawled), |Served(stored, crawled)|))
            && db.rows == old(db.rows) && db.nextId == old(db.nextId))
      && (stored == [] && crawled != [] && commitOk ==>
            && r == Ok(Response(true, crawled, |crawled|))
            && Table(db.rows, db.nextId) == Save(old(Table(db.rows, db.nextId)), crawled, now))
      && (stored == [] && crawled != [] && !commitOk ==>
            r.Err? && db.rows == old(db.rows) && db.nextId == old(db.nextId))
  {
    var data := GetLegislationBySource(db, source, readOk);
    var served := Fallback(db, data, crawled, now, commitOk);
    if served.Err? {
      return Err(served.message);
    }
    return Ok(Response(true, served.value, |served.value|));
  }

  method GetNationalLegislation(db: DatabaseService, crawled: seq<Item>, now: Timestamp, readOk: bool, commitOk: bool)
    returns (r: Result<Response>)
    requires db.Valid()
    modifies db
    ensures db.Valid()
    ensures var stored := ReadStored(old(db.rows), National, readOk);
      && (stored != [] || crawled == [] ==>
            && r == Ok(Response(true, Served(stored, crawled), |Served(stored, crawled)|))
            && db.rows == old(db.rows) && db.nextId == old(db.nextId))
      && (stored == [] && crawled != [] && commitOk ==>
            && r == Ok(Response(true, crawled, |crawled|))
            && Table(db.rows, db.nextId) == Save(old(Table(db.rows, db.nextId)), crawled, now))
      && (stored == [] && crawled != [] && !commitOk ==>
            r.Err? && db.rows == old(db.rows) && db.nextId == old(db.nextId))
  {
    r := GetSourceLegislation(db, National, crawled, now, readOk, commitOk);
  }

  method GetAdminLegislation(db: DatabaseService, crawled: seq<Item>, now: Timestamp, readOk: bool, commitOk: bool)
    returns (r: Result<Response>)
    requires db.Valid()
    modifies db
    ensures db.Valid()
    ensures var stored := ReadStored(old(db.rows), Admin, readOk);
      && (stored != [] || crawled == [] ==>
            && r == Ok(Response(true, Served(stored, crawled), |Served(stored, crawled)|))
            && db.rows == old(db.rows) && db.nextId == old(db.nextId))
      && (stored == [] && crawled != [] && commitOk ==>
            && r == Ok(Response(true, crawled, |crawled|))
            && Table(db.rows, db.nextId) == Save(old(Table(db.rows, db.nextId)), crawled, now))
      && (stored == [] && crawled != [] && !commitOk ==>
            r.Err? && db.rows == old(db.rows) && db.nextId == old(db.nextId))
  {
    r := GetSourceLegislation(db, Admin, crawled, now, readOk, commitOk);
  }

  /** The `/all` handler: both sources are read from the store first, then
      each falls back on its own; the answer lists the legislature's items
      before the executive branch's. A failing national save ends the
      request before the executive-branch fallback. */
  method GetAllLegislation(db: DatabaseService, nationalCrawl: seq<Item>, adminCrawl: seq<Item>, now: Timestamp,
                           nationalReadOk: bool, adminReadOk: bool, nationalCommitOk: bool, adminCommitOk: bool)
    returns (r: Result<Response>)
    requires db.Valid()
    modifies db
    ensures db.Valid()
    ensures var national := ReadStored(old(db.rows), National, nationalReadOk);
      var admin := ReadStored(old(db.rows), Admin, adminReadOk);
      var nationalFails := FallbackFails(national, nationalCrawl, nationalCommitOk);
      var adminFails := FallbackFails(admin, adminCrawl, adminCommitOk);
      && (nationalFails || adminFails <==> r.Err?)
      && (r.Ok? ==> r.value == Response(true, Served(national, nationalCrawl) + Served(admin, adminCrawl),
                                        |Served(national, nationalCrawl)| + |Served(admin, adminCrawl)|))
      && var afterNational := AfterFallback(old(Table(db.rows, db.nextId)), national, nationalCrawl, now, nationalCommitOk);
         Table(db.rows, db.nextId) ==
           if nationalFails then afterNational
           else AfterFallback(afterNational, admin, adminCrawl, now, adminCommitOk)
  {
    var nationalData := GetLegislationBySource(db, National, nationalReadOk);
    var adminData := GetLegislationBySource(db, Admin, adminReadOk);
    var nationalServed := Fallback(db, nationalData, nationalCrawl, now, nationalCommitOk);
    if nationalServed.Err? {
      return Err(nationalServed.message);
    }
    var adminServed := Fallback(db, adminData, adminCrawl, now, adminCommitOk);
    if adminServed.Err? {
      return Err(adminServed.message);
    }
    var allData := nationalServed.value + adminServed.value;
    return Ok(Response(true, allData, |allData|));
  }

  /** The `/refresh` handler: it runs both crawls and reports their sizes;
      it takes no store, so it writes nothing. */
  method RefreshLegislationData(nationalCrawl: seq<Item>, adminCrawl: seq<Item>) returns (report: RefreshReport)
    ensures report.success
    ensures report.nationalCount == |nationalCrawl| && report.adminCount == |adminCrawl|
    ensures report.totalCount == report.nationalCount + report.adminCount
  {
    report := RefreshReport(true, |nationalCrawl|, |adminCrawl|, |nationalCrawl| + |adminCrawl|);
  }
}

=== FILE: legislation_service.dfy ===
/** `LegislationService`: collecting the legislature's open API, merging it
    with the scraped legislature records, converting the executive-branch
    records, and the title cleanup of the browser-driven collector. */
module LegislationService {
  import opened Outcomes
  import opened Strings
  import opened Dates
  import opened Records
  import opened WebScraper

  // ---------------------------------------------------------------------
  // Title cleanup

  /** The title cleanup: when the title holds both `]` and `(`, keep what
      follows the last `]` up to the first `(` after it, stripped;
      otherwise keep the title as it is. */
  function CleanTitle(raw: string): string {
    if ']' in raw && '(' in raw then Strip(Before(AfterLast(raw, ']'), "(")) else raw
  }

  /** A title lacking `]` or `(` is kept unchanged. Otherwise, with `t` the
      text after the last `]`, the cleaned title is `t` up to its first `(`
      (all of `t` when it has none), stripped; it holds neither character. */
  lemma CleanTitleShape(raw: string)
    ensures !(']' in raw && '(' in raw) ==> CleanTitle(raw) == raw
    ensures ']' in raw && '(' in raw ==>
      var t := AfterLast(raw, ']');
      && ']' !in CleanTitle(raw)
      && '(' !in CleanTitle(raw)
      && ('(' !in t ==> CleanTitle(raw) == Strip(t))
      && ('(' in t ==> exists j :: 0 <= j < |t| && t[j] == '(' && '(' !in t[..j] && CleanTitle(raw) == Strip(t[..j]))
  {
    if ']' in raw && '(' in raw {
      var t := AfterLast(raw, ']');
      var head := Before(t, "(");
      assert head == t[..|head|];
      assert ']' !in head;
      ContainsChar(head, '(');
      StripKeepsOut(head, ']');
      StripKeepsOut(head, '(');
      BeforeChar(t, '(');
    }
  }

  // ---------------------------------------------------------------------
  // The API map: an insertion-ordered dictionary keyed by bill number

  /** One row of the open API's answer; a missing text field reads as "" and
      a missing `BILL_NO` as `None`. */
  datatype ApiRow = ApiRow(
    billNo: Option<string>,
    notiStDt: string,
    billName: string,
    linkUrl: string,
    currCommittee: string,
    proposer: string,
    notiEdDt: string)

  /** The value stored under a bill number. */
  datatype ApiInfo = ApiInfo(
    billNo: Option<string>,
    title: string,
    link: string,
    committee: string,
    proposer: string,
    endDate: string,
    summary: string)

  const NoSummary: string := "(내용 없음)"

  /** A Python dictionary: its entries in insertion order. */
  type ApiData = seq<(Option<string>, ApiInfo)>

  predicate UniqueKeys(d: ApiData) {
    forall i, j :: 0 <= i < j < |d| ==> d[i].0 != d[j].0
  }

  predicate HasKey(d: ApiData, k: Option<string>) {
    exists i :: 0 <= i < |d| && d[i].0 == k
  }

  /** The position of key `k`, if present. */
  function IndexOf(d: ApiData, k: Option<string>): (r: Option<nat>)
    ensures r.Some? ==> r.value < |d| && d[r.value].0 == k
    ensures r.None? <==> !HasKey(d, k)
  {
    if d == [] then None
    else if d[|d| - 1].0 == k then Some(|d| - 1)
    else
      var r := IndexOf(d[..|d| - 1], k);
      if r.Some? then Some(r.value)
      else
        assert forall i :: 0 <= i < |d| - 1 ==> d[..|d| - 1][i] == d[i];
        None
  }

  /** `d[k]`, if present. */
  function Lookup(d: ApiData, k: Option<string>): (r: Option<ApiInfo>)
    ensures r.Some? <==> HasKey(d, k)
  {
    match IndexOf(d, k)
    case None => None
    case Some(i) => Some(d[i].1)
  }

  lemma LookupUnique(d: ApiData, k: Option<string>, i: nat)
    requires UniqueKeys(d) && i < |d| && d[i].0 == k
    ensures Lookup(d, k) == Some(d[i].1)
  {
  }

  /** `d[k] = v`: an existing key keeps its position, a new key goes last. */
  function Put(d: ApiData, k: Option<string>, v: ApiInfo): (r: ApiData)
    ensures HasKey(d, k) ==> |r| == |d|
    ensures !HasKey(d, k) ==> r == d + [(k, v)]
    ensures forall i :: 0 <= i < |d| ==> r[i].0 == d[i].0
  {
    match IndexOf(d, k)
    case None => d + [(k, v)]
    case Some(i) => d[i := (k, v)]
  }

  /** Assigning a key keeps the keys unique, makes `k` map to `v` and leaves
      every other key's value alone. */
  lemma PutLookup(d: ApiData, k: Option<string>, v: ApiInfo)
    requires UniqueKeys(d)
    ensures UniqueKeys(Put(d, k, v))
    ensures Lookup(Put(d, k, v), k) == Some(v)
    ensures forall k' :: k' != k ==> Lookup(Put(d, k, v), k') == Lookup(d, k')
  {
    var r := Put(d, k, v);
    var i := IndexOf(d, k);
    if i.None? {
      assert r[|d|] == (k, v);
      LookupUnique(r, k, |d|);
    } else {
      assert r[i.value] == (k, v);
      LookupUnique(r, k, i.value);
    }
    forall k' | k' != k
      ensures Lookup(r, k') == Lookup(d, k')
    {
      var j := IndexOf(d, k');
      if j.Some? {
        assert r[j.value] == d[j.value];
        LookupUnique(r, k', j.value);
      }
    }
  }

  // ---------------------------------------------------------------------
  // Collecting the API

  /** The dictionary entry built from an API row. */
  function Info(row: ApiRow): (info: ApiInfo)
    ensures info.billNo == row.billNo && info.summary == NoSummary
  {
    ApiInfo(row.billNo, row.billName, row.linkUrl, row.currCommittee, row.proposer, row.notiEdDt, NoSummary)
  }

  /** The dictionary after the rows of one page: rows whose start date is
      not `target` are skipped, the rest are stored under their bill
      number. */
  function CollectRows(d: ApiData, rows: seq<ApiRow>, target: string): ApiData {
    if rows == [] then d
    else
      var prior := CollectRows(d, rows[..|rows| - 1], target);
      var row := rows[|rows| - 1];
      if row.notiStDt != target then prior else Put(prior, row.billNo, Info(row))
  }

  /** Whether an API row starts on `target` under bill number `k`. */
  predicate Matches(row: ApiRow, k: Option<string>, target: string) {
    row.notiStDt == target && row.billNo == k
  }

  /** The last row with bill number `k` among those starting on `target`;
      none exactly when no row starts on `target` under `k`. */
  function LastMatch(rows: seq<ApiRow>, k: Option<string>, target: string): (r: Option<ApiRow>)
    ensures r.Some? ==> r.value in rows && Matches(r.value, k, target)
  {
    if rows == [] then None
    else
      var row := rows[|rows| - 1];
      if Matches(row, k, target) then Some(row)
      else LastMatch(rows[..|rows| - 1], k, target)
  }

  /** The match found is the last one, and there is none exactly when no
      row matches. */
  lemma {:induction false} LastMatchIsLast(rows: seq<ApiRow>, k: Option<string>, target: string)
    ensures LastMatch(rows, k, target).None? <==> forall j :: 0 <= j < |rows| ==> !Matches(rows[j], k, target)
    ensures LastMatch(rows, k, target).Some? ==> exists i ::
      && 0 <= i < |rows| && LastMatch(rows, k, target).value == rows[i] && Matches(rows[i], k, target)
      && forall j :: i < j < |rows| ==> !Matches(rows[j], k, target)
  {
    if rows != [] {
      var init := rows[..|rows| - 1];
      var last := |rows| - 1;
      var r := LastMatch(rows, k, target);
      if Matches(rows[last], k, target) {
        assert r == Some(rows[last]);
      } else {
        assert r == LastMatch(init, k, target);
        LastMatchIsLast(init, k, target);
        assert forall j :: 0 <= j < |init| ==> init[j] == rows[j];
        if r.Some? {
          var i :| 0 <= i < |init| && r.value == init[i] && Matches(init[i], k, target)
            && forall j :: i < j < |init| ==> !Matches(init[j], k, target);
          assert r.value == rows[i] && forall j :: i < j < |rows| ==> !Matches(rows[j], k, target);
        }
      }
    }
  }

  /** After one page, a bill number maps to the entry of its last row that
      starts on the target date, or keeps its earlier value when the page
      has none; keys stay unique. */
  lemma {:induction false} CollectRowsLookup(d: ApiData, rows: seq<ApiRow>, target: string, k: Option<string>)
    requires UniqueKeys(d)
    ensures UniqueKeys(CollectRows(d, rows, target))
    ensures Lookup(CollectRows(d, rows, target), k) ==
      match LastMatch(rows, k, target)
      case Some(row) => Some(Info(row))
      case None => Lookup(d, k)
  {
    if rows != [] {
      var prior := CollectRows(d, rows[..|rows| - 1], target);
      CollectRowsLookup(d, rows[..|rows| - 1], target, k);
      var row := rows[|rows| - 1];
      if row.notiStDt == target {
        PutLookup(prior, row.billNo, Info(row));
      }
    }
  }

  /** Keys present before a page stay, in place, and every entry holds the
      constant summary. */
  lemma {:induction false} CollectRowsKeeps(d: ApiData, rows: seq<ApiRow>, target: string)
    requires forall i :: 0 <= i < |d| ==> d[i].1.summary == NoSummary
    ensures |d| <= |CollectRows(d, rows, target)|
    ensures forall i :: 0 <= i < |d| ==> CollectRows(d, rows, target)[i].0 == d[i].0
    ensures forall e :: e in CollectRows(d, rows, target) ==> e.1.summary == NoSummary
  {
    if rows != [] {
      CollectRowsKeeps(d, rows[..|rows| - 1], target);
      var prior := CollectRows(d, rows[..|rows| - 1], target);
      var row := rows[|rows| - 1];
      if row.notiStDt == target {
        var r := Put(prior, row.billNo, Info(row));
        forall e | e in r
          ensures e.1.summary == NoSummary
        {
          var i :| 0 <= i < |r| && r[i] == e;
          if i < |prior| && r[i] == prior[i] {
            assert prior[i] in prior;
          }
        }
      }
    }
  }

  /** The dictionary `_collect_api_data` builds from page `page` on, or
      `None` when a request or the decoding raises. `pages[n]` is the answer
      for page `n + 1`; pages past the end answer with no rows, and the
      first page with no rows ends the collection. */
  function ApiFrom(pages: seq<Option<seq<ApiRow>>>, page: nat, d: ApiData, target: string): Option<ApiData>
    decreases |pages| - page
  {
    if page >= |pages| then Some(d)
    else
      match pages[page]
      case None => None
      case Some(rows) =>
        if rows == [] then Some(d)
        else ApiFrom(pages, page + 1, CollectRows(d, rows, target), target)
  }

  /** `_collect_api_data`. */
  method CollectApiData(pages: seq<Option<seq<ApiRow>>>, target: string) returns (r: Option<ApiData>)
    ensures r == ApiFrom(pages, 0, [], target)
  {
    var apiData: ApiData := [];
    var page: nat := 0;
    while true
      invariant ApiFrom(pages, 0, [], target) == ApiFrom(pages, page, apiData, target)
      decreases |pages| - page
    {
      var response := if page < |pages| then pages[page] else Some([]);
      if response.None? {
        return None;
      }
      var rows := response.value;
      if rows == [] {
        break;
      }
      ghost var before := apiData;
      for i := 0 to |rows|
        invariant apiData == CollectRows(before, rows[..i], target)
      {
        var bill := rows[i];
        assert rows[..i + 1][..i] == rows[..i];
        if bill.notiStDt != target {
          continue;
        }
        apiData := Put(apiData, bill.billNo, Info(bill));
      }
      assert rows[..|rows|] == rows;
      page := page + 1;
    }
    return Some(apiData);
  }

  /** The pages read are the ones up to the first page without rows: a
      change to any later page changes nothing. */
  lemma {:induction false} ApiFromStopsAtEmptyPage(p1: seq<Option<seq<ApiRow>>>, p2: seq<Option<seq<ApiRow>>>, page: nat, last: nat, d: ApiData, target: string)
    requires page <= last < |p1| && last < |p2|
    requires forall n :: page <= n <= last ==> p1[n] == p2[n]
    requires p1[last] == Some([])
    ensures ApiFrom(p1, page, d, target) == ApiFrom(p2, page, d, target)
    decreases last - page
  {
    if page < last && p1[page].Some? && p1[page].value != [] {
      ApiFromStopsAtEmptyPage(p1, p2, page + 1, last, CollectRows(d, p1[page].value, target), target);
    }
  }

  /** A request that raises before any empty page loses the whole
      dictionary. */
  lemma {:induction false} ApiFromFails(pages: seq<Option<seq<ApiRow>>>, page: nat, failing: nat, d: ApiData, target: string)
    requires page <= failing < |pages| && pages[failing].None?
    requires forall n :: page <= n < failing ==> pages[n].Some? && pages[n].value != []
    ensures ApiFrom(pages, page, d, target).None?
    decreases failing - page
  {
    if page < failing {
      ApiFromFails(pages, page + 1, failing, CollectRows(d, pages[page].value, target), target);
    }
  }

  /** The collected dictionary has unique keys, every value holds the
      constant summary, and the keys it started with stay in place. */
  lemma {:induction false} ApiFromShape(pages: seq<Option<seq<ApiRow>>>, page: nat, d: ApiData, target: string)
    requires UniqueKeys(d)
    requires forall i :: 0 <= i < |d| ==> d[i].1.summary == NoSummary
    ensures ApiFrom(pages, page, d, target).Some? ==>
      var r := ApiFrom(pages, page, d, target).value;
      && UniqueKeys(r)
      && (forall e :: e in r ==> e.1.summary == NoSummary)
      && |d| <= |r|
      && (forall i :: 0 <= i < |d| ==> r[i].0 == d[i].0)
    decreases |pages| - page
  {
    if page < |pages| && pages[page].Some? && pages[page].value != [] {
      var rows := pages[page].value;
      var next := CollectRows(d, rows, target);
      CollectRowsLookup(d, rows, target, None);
      CollectRowsKeeps(d, rows, target);
      forall i | 0 <= i < |next|
        ensures next[i].1.summary == NoSummary
      {
        assert next[i] in next;
      }
      ApiFromShape(pages, page + 1, next, target);
    } else if ApiFrom(pages, page, d, target).Some? {
      forall e | e in d
        ensures e.1.summary == NoSummary
      {
      }
    }
  }

  /** An assignment adds or replaces exactly the one entry. */
  lemma PutEntries(d: ApiData, k: Option<string>, v: ApiInfo)
    ensures forall e :: e in Put(d, k, v) ==> e in d || e == (k, v)
  {
    forall e | e in Put(d, k, v)
      ensures e in d || e == (k, v)
    {
      var r := Put(d, k, v);
      var i :| 0 <= i < |r| && r[i] == e;
      if i < |d| && r[i] == d[i] {
        assert d[i] in d;
      }
    }
  }

  /** Every entry a page adds is built from one of its rows that starts on
      the target date, under that row's bill number. */
  lemma {:induction false} CollectRowsEntries(d: ApiData, rows: seq<ApiRow>, target: string)
    ensures forall e :: e in CollectRows(d, rows, target) ==>
      e in d || exists j :: 0 <= j < |rows| && rows[j].notiStDt == target && e == (rows[j].billNo, Info(rows[j]))
  {
    if rows != [] {
      var init := rows[..|rows| - 1];
      var row := rows[|rows| - 1];
      CollectRowsEntries(d, init, target);
      var prior := CollectRows(d, init, target);
      PutEntries(prior, row.billNo, Info(row));
      forall e | e in CollectRows(d, rows, target)
        ensures e in d || exists j :: 0 <= j < |rows| && rows[j].notiStDt == target && e == (rows[j].billNo, Info(rows[j]))
      {
        if e !in d {
          if e in prior {
            var j :| 0 <= j < |init| && init[j].notiStDt == target && e == (init[j].billNo, Info(init[j]));
            assert init[j] == rows[j];
          } else {
            assert e == (row.billNo, Info(row));
          }
        }
      }
    }
  }

  /** `_collect_api_data`'s date filter holds across all pages: every entry
      of the collected dictionary that it did not start with is built from
      a row of some page read that starts on the target date, stored under
      that row's bill number. Started from `{}`, every entry is. */
  lemma {:induction false} ApiFromEntries(pages: seq<Option<seq<ApiRow>>>, page: nat, d: ApiData, target: string)
    ensures ApiFrom(pages, page, d, target).Some? ==>
      forall e :: e in ApiFrom(pages, page, d, target).value ==>
        || e in d
        || exists p, j :: page <= p < |pages| && pages[p].Some? && 0 <= j < |pages[p].value|
             && pages[p].value[j].notiStDt == target && e == (pages[p].value[j].billNo, Info(pages[p].value[j]))
    decreases |pages| - page
  {
    if page < |pages| && pages[page].Some? && pages[page].value != [] {
      var rows := pages[page].value;
      var next := CollectRows(d, rows, target);
      CollectRowsEntries(d, rows, target);
      ApiFromEntries(pages, page + 1, next, target);
    }
  }

  /** The filter and the overwrite, page by page: a bill number maps to the
      entry of the last row on this page that starts on the target date,
      else to what the earlier pages left. */
  lemma ApiPageStep(pages: seq<Option<seq<ApiRow>>>, page: nat, d: ApiData, target: string, k: Option<string>)
    requires UniqueKeys(d)
    requires page < |pages| && pages[page].Some? && pages[page].value != []
    ensures ApiFrom(pages, page, d, target) == ApiFrom(pages, page + 1, CollectRows(d, pages[page].value, target), target)
    ensures Lookup(CollectRows(d, pages[page].value, target), k) ==
      match LastMatch(pages[page].value, k, target)
      case Some(row) => Some(Info(row))
      case None => Lookup(d, k)
  {
    CollectRowsLookup(d, pages[page].value, target, k);
  }

  // ---------------------------------------------------------------------
  // Merging the API with the scraped legislature records

  /** The item built from an API entry: no start date, legislature source. */
  function ApiItem(k: Option<string>, info: ApiInfo, now: Timestamp): Item {
    Item(None, info.title, info.committee, Some(info.proposer), "", info.endDate, info.summary,
         info.link, k, National, Some(now))
  }

  /** The item built from a scraped legislature record. */
  function WebItem(row: NationalRow, now: Timestamp): Item {
    Item(None, row.title, row.committee, Some(row.proposer), row.startDate, row.endDate, row.content,
         row.link, Some(row.billNo), National, Some(now))
  }

  function ApiItems(d: ApiData, now: Timestamp): (r: seq<Item>)
    ensures |r| == |d|
  {
    if d == [] then [] else ApiItems(d[..|d| - 1], now) + [ApiItem(d[|d| - 1].0, d[|d| - 1].1, now)]
  }

  /** The scraped records whose bill number is not an API key, in order,
      duplicates included. */
  function NewRows(d: ApiData, web: seq<NationalRow>): (r: seq<NationalRow>)
    ensures |r| <= |web|
  {
    if web == [] then []
    else
      var prior := NewRows(d, web[..|web| - 1]);
      var row := web[|web| - 1];
      if HasKey(d, Some(row.billNo)) then prior else prior + [row]
  }

  function WebItems(rows: seq<NationalRow>, now: Timestamp): (r: seq<Item>)
    ensures |r| == |rows|
  {
    if rows == [] then [] else WebItems(rows[..|rows| - 1], now) + [WebItem(rows[|rows| - 1], now)]
  }

  /** `_combine_data_new` (and `_combine_data`, whose body is the same). */
  function Combine(d: ApiData, web: seq<NationalRow>, now: Timestamp): seq<Item> {
    ApiItems(d, now) + WebItems(NewRows(d, web), now)
  }

  /** `_combine_data_new`: the API entries, then the scraped records not
      already known to the API. */
  method CombineDataNew(apiData: ApiData, webData: seq<NationalRow>, now: Timestamp) returns (combinedItems: seq<Item>)
    ensures combinedItems == Combine(apiData, webData, now)
  {
    combinedItems := [];
    for i := 0 to |apiData|
      invariant combinedItems == ApiItems(apiData[..i], now)
    {
      var (billNo, info) := apiData[i];
      combinedItems := combinedItems + [ApiItem(billNo, info, now)];
      assert apiData[..i + 1][..i] == apiData[..i];
    }
    assert apiData[..|apiData|] == apiData;
    ghost var apiPart := combinedItems;
    for i := 0 to |webData|
      invariant combinedItems == apiPart + WebItems(NewRows(apiData, webData[..i]), now)
    {
      var row := webData[i];
      assert webData[..i + 1][..i] == webData[..i];
      if !HasKey(apiData, Some(row.billNo)) {
        combinedItems := combinedItems + [WebItem(row, now)];
      }
    }
    assert webData[..|webData|] == webData;
  }

  lemma {:induction false} ApiItemsAt(d: ApiData, now: Timestamp, i: nat)
    requires i < |d|
    ensures ApiItems(d, now)[i] == ApiItem(d[i].0, d[i].1, now)
  {
    if i < |d| - 1 {
      ApiItemsAt(d[..|d| - 1], now, i);
    }
  }

  lemma {:induction false} WebItemsAt(rows: seq<NationalRow>, now: Timestamp, i: nat)
    requires i < |rows|
    ensures WebItems(rows, now)[i] == WebItem(rows[i], now)
  {
    if i < |rows| - 1 {
      WebItemsAt(rows[..|rows| - 1], now, i);
    }
  }

  /** A scraped record survives the merge exactly when its bill number is
      not an API key; with no API keys at all every record survives,
      duplicates included. */
  lemma {:induction false} NewRowsMembers(d: ApiData, web: seq<NationalRow>)
    ensures forall row :: row in NewRows(d, web) <==> row in web && !HasKey(d, Some(row.billNo))
    ensures d == [] ==> NewRows(d, web) == web
  {
    if web != [] {
      NewRowsMembers(d, web[..|web| - 1]);
      assert web == web[..|web| - 1] + [web[|web| - 1]];
    }
  }

  /** The merged list: one item per API key, in dictionary order, each with
      no start date and the legislature source, followed by the scraped
      records not known to the API, in input order; its length is the
      number of keys plus the number of such records. */
  lemma CombineShape(d: ApiData, web: seq<NationalRow>, now: Timestamp)
    ensures |Combine(d, web, now)| == |d| + |NewRows(d, web)|
    ensures forall i :: 0 <= i < |d| ==>
      && Combine(d, web, now)[i] == ApiItem(d[i].0, d[i].1, now)
      && Combine(d, web, now)[i].startDate == ""
      && Combine(d, web, now)[i].source == National
      && Combine(d, web, now)[i].billNo == d[i].0
    ensures forall j :: 0 <= j < |NewRows(d, web)| ==>
      Combine(d, web, now)[|d| + j] == WebItem(NewRows(d, web)[j], now)
    ensures forall item :: item in Combine(d, web, now) ==> item.source == National
  {
    var r := Combine(d, web, now);
    forall i | 0 <= i < |d|
      ensures r[i] == ApiItem(d[i].0, d[i].1, now)
    {
      ApiItemsAt(d, now, i);
    }
    forall j | 0 <= j < |NewRows(d, web)|
      ensures r[|d| + j] == WebItem(NewRows(d, web)[j], now)
    {
      WebItemsAt(NewRows(d, web), now, j);
    }
  }

  lemma NewRowsNotKeys(d: ApiData, web: seq<NationalRow>, j: nat)
    ensures j < |NewRows(d, web)| ==> !HasKey(d, Some(NewRows(d, web)[j].billNo))
  {
    if j < |NewRows(d, web)| {
      NewRowsMembers(d, web);
      assert NewRows(d, web)[j] in NewRows(d, web);
    }
  }

  /** On a key collision the API wins: no item built from a scraped record
      carries a bill number the API already holds. */
  lemma CombineApiWins(d: ApiData, web: seq<NationalRow>, now: Timestamp, k: string)
    requires UniqueKeys(d) && HasKey(d, Some(k))
    ensures forall item :: item in Combine(d, web, now) && item.billNo == Some(k) ==>
      exists i :: 0 <= i < |d| && item == ApiItem(d[i].0, d[i].1, now)
  {
    CombineShape(d, web, now);
    NewRowsMembers(d, web);
    var r := Combine(d, web, now);
    forall item | item in r && item.billNo == Some(k)
      ensures exists i :: 0 <= i < |d| && item == ApiItem(d[i].0, d[i].1, now)
    {
      var m :| 0 <= m < |r| && r[m] == item;
      if m >= |d| {
        NewRowsNotKeys(d, web, m - |d|);
        assert false;
      }
      assert item == ApiItem(d[m].0, d[m].1, now);
    }
  }

  // ---------------------------------------------------------------------
  // Converting the executive-branch records

  function AdminItem(row: AdminRow, now: Timestamp): Item {
    Item(None, row.title, row.committee, Some(row.proposer), row.startDate, row.endDate, row.content,
         row.linkUrl, None, row.source, Some(now))
  }

  function AdminItems(rows: seq<AdminRow>, now: Timestamp): (r: seq<Item>)
    ensures |r| == |rows|
  {
    if rows == [] then [] else AdminItems(rows[..|rows| - 1], now) + [AdminItem(rows[|rows| - 1], now)]
  }

  /** `_convert_admin_data_to_items`: one item per record, in order, every
      field carried over, no bill number. */
  method ConvertAdminDataToItems(webData: seq<AdminRow>, now: Timestamp) returns (items: seq<Item>)
    ensures |items| == |webData|
    ensures forall i :: 0 <= i < |webData| ==>
      && items[i].title == webData[i].title
      && items[i].committee == webData[i].committee
      && items[i].proposer == Some(webData[i].proposer)
      && items[i].startDate == webData[i].startDate
      && items[i].endDate == webData[i].endDate
      && items[i].content == webData[i].content
      && items[i].linkUrl == webData[i].linkUrl
      && items[i].source == webData[i].source
      && items[i].billNo.None?
      && items[i].createdAt == Some(now)
    ensures items == AdminItems(webData, now)
  {
    items := [];
    for i := 0 to |webData|
      invariant items == AdminItems(webData[..i], now)
      invariant forall j :: 0 <= j < i ==> items[j] == AdminItem(webData[j], now)
    {
      assert webData[..i + 1][..i] == webData[..i];
      items := items + [AdminItem(webData[i], now)];
    }
    assert webData[..|webData|] == webData;
  }

  // ---------------------------------------------------------------------
  // The two entry points

  /** `get_national_legislation` as a function of the API pages and the
      two sites: nothing at all when the API collection raises. */
  function NationalLegislation(pages: seq<Option<seq<ApiRow>>>, listing: nat -> Option<seq<string>>,
                               detail: string -> Option<NationalPage>, target: string, now: Timestamp): seq<Item> {
    match ApiFrom(pages, 0, [], target)
    case None => []
    case Some(d) => Combine(d, NationalScrape(listing, detail, target), now)
  }

  method GetNationalLegislation(pages: seq<Option<seq<ApiRow>>>, listing: nat -> Option<seq<string>>,
                                detail: string -> Option<NationalPage>, target: string, now: Timestamp)
    returns (items: seq<Item>)
    ensures items == NationalLegislation(pages, listing, detail, target, now)
  {
    var apiData := CollectApiData(pages, target);
    if apiData.None? {
      return [];
    }
    var webData := GetNationalLegislationData(listing, detail, target);
    items := CombineDataNew(apiData.value, webData, now);
  }

  /** `get_admin_legislation` as a function of the two sites. */
  function AdminLegislation(listing: nat -> Option<seq<string>>, detail: string -> Option<AdminPage>,
                            target: string, today: Date, now: Timestamp): seq<Item> {
    AdminItems(AdminScrape(listing, detail, target, today), now)
  }

  method GetAdminLegislation(listing: nat -> Option<seq<string>>, detail: string -> Option<AdminPage>,
                             target: string, today: Date, now: Timestamp)
    returns (items: seq<Item>)
    ensures items == AdminLegislation(listing, detail, target, today, now)
  {
    var webData := GetAdminLegislationData(listing, detail, target, today);
    items := ConvertAdminDataToItems(webData, now);
  }

  /** A failing API request before the first empty page empties the whole
      legislature result, scraped records included. */
  lemma NationalLegislationFails(pages: seq<Option<seq<ApiRow>>>, listing: nat -> Option<seq<string>>,
                                 detail: string -> Option<NationalPage>, target: string, now: Timestamp, failing: nat)
    requires failing < |pages| && pages[failing].None?
    requires forall n :: 0 <= n < failing ==> pages[n].Some? && pages[n].value != []
    ensures NationalLegislation(pages, listing, detail, target, now) == []
  {
    ApiFromFails(pages, 0, failing, [], target);
  }

  /** A failing executive-branch listing request after productive pages
      empties the whole executive-branch result. */
  lemma AdminLegislationFails(listing: nat -> Option<seq<string>>, detail: string -> Option<AdminPage>,
                              target: string, today: Date, now: Timestamp, failing: nat)
    requires 1 <= failing <= AdminPageLimit && listing(failing).None?
    requires forall k :: 1 <= k < failing ==>
      listing(k).Some? && KeepVisited(PageLinks(listing(k).value, AdminHost), AdminVisit(detail, target, today)) != []
    ensures AdminLegislation(listing, detail, target, today, now) == []
  {
    AdminFromFail(listing, AdminVisit(detail, target, today), 1, failing);
  }

  /** Every executive-branch item starts on the target date, carries no bill
      number and is marked with the executive-branch source. */
  lemma AdminLegislationWindow(listing: nat -> Option<seq<string>>, detail: string -> Option<AdminPage>,
                               target: string, today: Date, now: Timestamp)
    ensures forall item :: item in AdminLegislation(listing, detail, target, today, now) ==>
      item.startDate == target && item.billNo.None? && item.source == Admin && item.proposer == Some("")
  {
    var rows := AdminScrape(listing, detail, target, today);
    AdminScrapeWindow(listing, detail, target, today);
    var items := AdminItems(rows, now);
    forall item | item in items
      ensures item.startDate == target && item.billNo.None? && item.source == Admin && item.proposer == Some("")
    {
      var i :| 0 <= i < |items| && items[i] == item;
      AdminItemsAt(rows, now, i);
      assert rows[i] in rows;
    }
  }

  lemma {:induction false} AdminItemsAt(rows: seq<AdminRow>, now: Timestamp, i: nat)
    requires i < |rows|
    ensures AdminItems(rows, now)[i] == AdminItem(rows[i], now)
  {
    if i < |rows| - 1 {
      AdminItemsAt(rows[..|rows| - 1], now, i);
    }
  }
}

=== FILE: outcomes.dfy ===
/** Optional values and error returns shared by every module of the model. */
module Outcomes {

  /** A value that may be absent: Python's `None` or a value. */
  datatype Option<+T> = None | Some(value: T) {
    function GetOr(default: T): T {
      if Some? then value else default
    }
  }

  /** The outcome of an operation that may raise: `Err` carries the message. */
  datatype Result<+T> = Ok(value: T) | Err(message: string)
}

=== FILE: period_parser.dfy ===
/** The comment-period parser of the executive-branch detail page: the
    pattern
      (\d{4})[.\- ]\s*(\d{1,2})[.\- ]\s*(\d{1,2})[.]?\s*~\s*(\d{4})[.\- ]\s*(\d{1,2})[.\- ]\s*(\d{1,2})
    searched for with `re.search`, the six groups turned into
    `YYYY-MM-DD` strings and read back with `strptime`.

    Every choice a backtracking matcher could revisit is forced here: each
    `\d{1,2}` is followed by something a digit cannot match, each `\s*` by a
    digit or `~`, and `[.]?` by `\s*~`. So the greedy, non-backtracking
    scanner below finds exactly the match `re.search` finds. */
module PeriodParser {
  import opened Outcomes
  import opened Strings
  import opened Dates

  /** The six captured digit groups. */
  datatype Groups = Groups(y1: string, m1: string, d1: string, y2: string, m2: string, d2: string)

  /** One date of the pattern: its three groups and the position after it. */
  datatype DateMatch = DateMatch(y: string, m: string, d: string, end: nat)

  /** The outcome of reading a period: the pattern did not match; it matched
      but `strptime` raised; or two valid dates. */
  datatype Period = NoMatch | Invalid | Period(start: Date, end: Date)

  /** The class `[.\- ]`. */
  predicate IsSep(c: char) {
    c == '.' || c == '-' || c == ' '
  }

  /** `\d{4}` at `i`. */
  function Digits4(s: string, i: nat): (r: Option<nat>)
    ensures r.Some? ==> r.value == i + 4 <= |s| && AllDigits(s[i..r.value])
  {
    if i + 4 <= |s| && AllDigits(s[i..i + 4]) then Some(i + 4) else None
  }

  /** Greedy `\d{1,2}` at `i`. */
  function Digits12(s: string, i: nat): (r: Option<nat>)
    ensures r.Some? ==> i + 1 <= r.value <= i + 2 && r.value <= |s| && AllDigits(s[i..r.value])
  {
    if i < |s| && IsDigit(s[i]) then
      if i + 1 < |s| && IsDigit(s[i + 1]) then Some(i + 2) else Some(i + 1)
    else None
  }

  /** `[.\- ]\s*` at `i`. */
  function SepSpaces(s: string, i: nat): (r: Option<nat>)
    ensures r.Some? ==> i < r.value <= |s|
  {
    if i < |s| && IsSep(s[i]) then Some(SkipSpaces(s, i + 1)) else None
  }

  predicate WellFormed(m: DateMatch) {
    |m.y| == 4 && 1 <= |m.m| <= 2 && 1 <= |m.d| <= 2 && AllDigits(m.y) && AllDigits(m.m) && AllDigits(m.d)
  }

  /** `(\d{4})[.\- ]\s*(\d{1,2})[.\- ]\s*(\d{1,2})` at `i`. */
  function DateAt(s: string, i: nat): (r: Option<DateMatch>)
    ensures r.Some? ==> WellFormed(r.value) && i < r.value.end <= |s|
  {
    match Digits4(s, i)
    case None => None
    case Some(a) =>
      match SepSpaces(s, a)
      case None => None
      case Some(b) =>
        match Digits12(s, b)
        case None => None
        case Some(c) =>
          match SepSpaces(s, c)
          case None => None
          case Some(e) =>
            match Digits12(s, e)
            case None => None
            case Some(f) => Some(DateMatch(s[i..a], s[b..c], s[e..f], f))
  }

  /** The position of the range separator `~` after the first date, having
      skipped `[.]?\s*`, if it is there. */
  function TildeAfter(s: string, p: nat): (r: Option<nat>)
    requires p <= |s|
    ensures r.Some? ==> r.value < |s| && s[r.value] == '~'
  {
    var p' := if p < |s| && s[p] == '.' then p + 1 else p;
    var q := SkipSpaces(s, p');
    if q < |s| && s[q] == '~' then Some(q) else None
  }

  /** The whole pattern, anchored at `i`. */
  function MatchAt(s: string, i: nat): (r: Option<Groups>)
    ensures r.Some? ==> GroupsWellFormed(r.value)
  {
    match DateAt(s, i)
    case None => None
    case Some(first) =>
      match TildeAfter(s, first.end)
      case None => None
      case Some(q) =>
        match DateAt(s, SkipSpaces(s, q + 1))
        case None => None
        case Some(second) => Some(Groups(first.y, first.m, first.d, second.y, second.m, second.d))
  }

  predicate GroupsWellFormed(g: Groups) {
    WellFormed(DateMatch(g.y1, g.m1, g.d1, 0)) && WellFormed(DateMatch(g.y2, g.m2, g.d2, 0))
  }

  /** The leftmost position in `i..n` that satisfies `p`. */
  function LeftmostFrom(p: nat -> bool, n: nat, i: nat): (k: Option<nat>)
    requires i <= n
    ensures k.Some? ==> i <= k.value <= n && p(k.value)
    ensures k.Some? ==> forall j :: i <= j < k.value ==> !p(j)
    ensures k.None? ==> forall j :: i <= j <= n ==> !p(j)
    decreases n - i
  {
    if p(i) then Some(i)
    else if i < n then LeftmostFrom(p, n, i + 1)
    else None
  }

  /** `re.search` from position `i`: the match at the leftmost position. */
  function SearchFrom(s: string, i: nat): (r: Option<Groups>)
    requires i <= |s|
    ensures r.Some? ==> GroupsWellFormed(r.value)
    ensures r.Some? ==> exists k :: i <= k <= |s| && MatchAt(s, k) == r && forall j :: i <= j < k ==> MatchAt(s, j).None?
    ensures r.None? ==> forall j :: i <= j <= |s| ==> MatchAt(s, j).None?
  {
    var matches := (j: nat) => MatchAt(s, j).Some?;
    match LeftmostFrom(matches, |s|, i)
    case None =>
      assert forall j: nat :: i <= j <= |s| ==> MatchAt(s, j).None? by {
        forall j: nat | i <= j <= |s|
          ensures MatchAt(s, j).None?
        {
          assert !matches(j);
        }
      }
      None
    case Some(k) =>
      assert forall j: nat :: i <= j < k ==> MatchAt(s, j).None? by {
        forall j: nat | i <= j < k
          ensures MatchAt(s, j).None?
        {
          assert !matches(j);
        }
      }
      assert matches(k);
      MatchAt(s, k)
  }

  function Search(s: string): (r: Option<Groups>)
    ensures r.Some? ==> GroupsWellFormed(r.value)
  {
    SearchFrom(s, 0)
  }

  /** `strptime(f"{y}-{int(m):02d}-{int(d):02d}", "%Y-%m-%d")`, before validity. */
  function ToDate(y: string, m: string, d: string): Date
    requires AllDigits(y) && AllDigits(m) && AllDigits(d)
  {
    Date(Value(y), Value(m), Value(d))
  }

  /** The period text read the way the executive-branch scraper reads it:
      no match, or the two dates of the first match, which are a period
      exactly when `strptime` accepts both. */
  function ParsePeriod(text: string): (r: Period)
    ensures r.Period? ==> IsValid(r.start) && IsValid(r.end)
    ensures r == NoMatch <==> Search(text).None?
    ensures Search(text).Some? ==>
      var g := Search(text).value;
      var start, end := ToDate(g.y1, g.m1, g.d1), ToDate(g.y2, g.m2, g.d2);
      && (r.Period? <==> IsValid(start) && IsValid(end))
      && (r.Period? ==> r.start == start && r.end == end)
  {
    match Search(text)
    case None => NoMatch
    case Some(g) =>
      var start := ToDate(g.y1, g.m1, g.d1);
      var end := ToDate(g.y2, g.m2, g.d2);
      if IsValid(start) && IsValid(end) then Period(start, end) else Invalid
  }

  /** A period needs both sides of the range: text without `~` never matches. */
  lemma {:induction false} NoTildeNoMatch(text: string, i: nat)
    requires i <= |text|
    requires '~' !in text
    ensures SearchFrom(text, i).None?
  {
    forall j | i <= j <= |text|
      ensures MatchAt(text, j).None?
    {
      NoTildeAt(text, j);
    }
  }

  lemma NoTildeAt(text: string, j: nat)
    requires '~' !in text
    ensures MatchAt(text, j).None?
  {
    match DateAt(text, j)
    case None =>
    case Some(first) =>
      assert TildeAfter(text, first.end).None?;
  }

  lemma OneSidedPeriod(text: string)
    requires '~' !in text
    ensures ParsePeriod(text) == NoMatch
  {
    NoTildeNoMatch(text, 0);
  }

  /** `%Y` renders a four-digit year group back as written. */
  lemma Pad4OfValue(y: string)
    requires |y| == 4 && AllDigits(y)
    ensures Pad4(Value(y)) == y
  {
    Value4(y);
    Pad4OfDigits(y[0], y[1], y[2], y[3]);
    assert y == [y[0], y[1], y[2], y[3]];
  }

  /** Four digits read as a number and written with `%Y` are the same digits. */
  lemma Pad4OfDigits(a: char, b: char, c: char, d: char)
    requires IsDigit(a) && IsDigit(b) && IsDigit(c) && IsDigit(d)
    ensures Pad4(1000 * DigitValue(a) + 100 * DigitValue(b) + 10 * DigitValue(c) + DigitValue(d)) == [a, b, c, d]
  {
    var hi := 10 * DigitValue(a) + DigitValue(b);
    var lo := 10 * DigitValue(c) + DigitValue(d);
    Pad4Split(hi, lo);
    Pad2OfDigits(a, b);
    Pad2OfDigits(c, d);
  }

  /** `%Y` writes the hundreds and the rest as two two-digit halves. */
  lemma Pad4Split(hi: int, lo: int)
    requires 0 <= hi <= 99 && 0 <= lo <= 99
    ensures Pad4(100 * hi + lo) == Pad2(hi) + Pad2(lo)
  {
    assert (100 * hi + lo) / 100 == hi && (100 * hi + lo) % 100 == lo;
  }

  /** Two digits read as a number and padded back are the same two digits. */
  lemma Pad2OfDigits(x: char, y: char)
    requires IsDigit(x) && IsDigit(y)
    ensures Pad2(10 * DigitValue(x) + DigitValue(y)) == [x, y]
  {
    var n := 10 * DigitValue(x) + DigitValue(y);
    assert n / 10 == DigitValue(x) && n % 10 == DigitValue(y);
  }

  /** The rendered dates are the captured groups with month and day padded
      to two digits: `YYYY-MM-DD`. */
  lemma RenderedPeriod(text: string)
    requires ParsePeriod(text).Period?
    ensures var g := Search(text).value;
      && Render(ParsePeriod(text).start) == g.y1 + "-" + Pad2(Value(g.m1)) + "-" + Pad2(Value(g.d1))
      && Render(ParsePeriod(text).end) == g.y2 + "-" + Pad2(Value(g.m2)) + "-" + Pad2(Value(g.d2))
  {
    var g := Search(text).value;
    Pad4OfValue(g.y1);
    Pad4OfValue(g.y2);
  }

}

=== FILE: records.dfy ===
/** The records that flow through the pipeline: the canonical
    `LegislationItem` and the dictionaries the two scrapers return. */
module Records {
  import opened Outcomes

  /** A point in time, in seconds; the model does not tell local time from UTC. */
  type Timestamp = int

  const National: string := "national"
  const Admin: string := "admin"

  /** `LegislationItem`. `id` is the store's row id (rendered with `str` in the
      source); `proposer`, `billNo`, `id` and `createdAt` may be absent. */
  datatype Item = Item(
    id: Option<nat>,
    title: string,
    committee: string,
    proposer: Option<string>,
    startDate: string,
    endDate: string,
    content: string,
    linkUrl: string,
    billNo: Option<string>,
    source: string,
    createdAt: Option<Timestamp>)

  /** What the legislature scraper returns per detail page: the dictionary
      keyed 의안번호, 제목, 제안자, 소관위, 링크, 게시종료일, 내용요약, 게시시작일. */
  datatype NationalRow = NationalRow(
    billNo: string,
    title: string,
    proposer: string,
    committee: string,
    link: string,
    endDate: string,
    content: string,
    startDate: string)

  /** What the executive-branch scraper returns per detail page. */
  datatype AdminRow = AdminRow(
    title: string,
    committee: string,
    proposer: string,
    startDate: string,
    endDate: string,
    content: string,
    linkUrl: string,
    source: string)
}

=== FILE: scheduled_crawler.dfy ===
/** The scheduled crawler: for each source, delete its rows, crawl, and
    save the crawl when it is non-empty; the run mode picks the sources.
    The crawl results are parameters, and so is the outcome of each store
    commit. */
module ScheduledCrawler {
  import opened Outcomes
  import opened Records
  import opened DatabaseService

  /** How a run ends: an unknown mode exits before crawling; a step whose
      save raises ends the run before notification; otherwise the API
      server is notified (the notification's own failure is swallowed). */
  datatype RunOutcome = UnknownMode | Failed | Completed

  /** The commit outcome of each store operation a run may perform. */
  datatype Commits = Commits(nationalDeleteOk: bool, nationalSaveOk: bool, adminDeleteOk: bool, adminSaveOk: bool)

  /** The table after deleting `source` (when that commit succeeds). */
  function Cleared(t: Table, source: string, deleteOk: bool): Table {
    if deleteOk then Table(WithoutSource(t.rows, source), t.nextId) else t
  }

  /** One crawl step on the table: delete, then save a non-empty crawl. */
  function StepTable(t: Table, source: string, crawled: seq<Item>, now: Timestamp, deleteOk: bool, saveOk: bool): Table {
    var cleared := Cleared(t, source, deleteOk);
    if crawled != [] && saveOk then Save(cleared, crawled, now) else cleared
  }

  /** A step fails only when its save raises. */
  predicate StepFails(crawled: seq<Item>, saveOk: bool) {
    crawled != [] && !saveOk
  }

  /** `crawl_and_save_national` / `crawl_and_save_admin`: delete the
      source's rows, then save the crawl if it returned anything; the save
      error is re-raised. A failing delete only logs, and the step goes on. */
  method CrawlAndSave(db: DatabaseService, source: string, crawled: seq<Item>, now: Timestamp, deleteOk: bool, saveOk: bool)
    returns (r: Result<nat>)
    requires db.Valid()
    modifies db
    ensures db.Valid()
    ensures StepFails(crawled, saveOk) <==> r.Err?
    ensures r.Ok? ==> r.value == |crawled|
    ensures Table(db.rows, db.nextId) ==
      if StepFails(crawled, saveOk) then Cleared(old(Table(db.rows, db.nextId)), source, deleteOk)
      else StepTable(old(Table(db.rows, db.nextId)), source, crawled, now, deleteOk, saveOk)
  {
    var _ := db.DeleteLegislationBySource(source, deleteOk);
    if crawled != [] {
      var saved := db.SaveLegislationData(crawled, now, saveOk);
      if saved.Err? {
        return Err(saved.message);
      }
      return Ok(saved.value);
    }
    return Ok(0);
  }

  method CrawlAndSaveNational(db: DatabaseService, crawled: seq<Item>, now: Timestamp, deleteOk: bool, saveOk: bool)
    returns (r: Result<nat>)
    requires db.Valid()
    modifies db
    ensures db.Valid()
    ensures StepFails(crawled, saveOk) <==> r.Err?
    ensures Table(db.rows, db.nextId) ==
      if StepFails(crawled, saveOk) then Cleared(old(Table(db.rows, db.nextId)), National, deleteOk)
      else StepTable(old(Table(db.rows, db.nextId)), National, crawled, now, deleteOk, saveOk)
  {
    r := CrawlAndSave(db, National, crawled, now, deleteOk, saveOk);
  }

  method CrawlAndSaveAdmin(db: DatabaseService, crawled: seq<Item>, now: Timestamp, deleteOk: bool, saveOk: bool)
    returns (r: Result<nat>)
    requires db.Valid()
    modifies db
    ensures db.Valid()
    ensures StepFails(crawled, saveOk) <==> r.Err?
    ensures Table(db.rows, db.nextId) ==
      if StepFails(crawled, saveOk) then Cleared(old(Table(db.rows, db.nextId)), Admin, deleteOk)
      else StepTable(old(Table(db.rows, db.nextId)), Admin, crawled, now, deleteOk, saveOk)
  {
    r := CrawlAndSave(db, Admin, crawled, now, deleteOk, saveOk);
  }

  /** The table after one step, whether or not it failed. */
  function AfterStep(t: Table, source: string, crawled: seq<Item>, now: Timestamp, deleteOk: bool, saveOk: bool): Table {
    if StepFails(crawled, saveOk) then Cleared(t, source, deleteOk) else StepTable(t, source, crawled, now, deleteOk, saveOk)
  }

  /** What a run does to the table and how it ends, by mode. */
  function RunSpec(mode: string, t: Table, nationalCrawl: seq<Item>, adminCrawl: seq<Item>, now: Timestamp, c: Commits): (Table, RunOutcome) {
    var national := AfterStep(t, National, nationalCrawl, now, c.nationalDeleteOk, c.nationalSaveOk);
    var nationalFails := StepFails(nationalCrawl, c.nationalSaveOk);
    if mode == "national" then
      (national, if nationalFails then Failed else Completed)
    else if mode == "admin" then
      (AfterStep(t, Admin, adminCrawl, now, c.adminDeleteOk, c.adminSaveOk),
       if StepFails(adminCrawl, c.adminSaveOk) then Failed else Completed)
    else if mode == "all" then
      if nationalFails then (national, Failed)
      else
        (AfterStep(national, Admin, adminCrawl, now, c.adminDeleteOk, c.adminSaveOk),
         if StepFails(adminCrawl, c.adminSaveOk) then Failed else Completed)
    else (t, UnknownMode)
  }

  /** `main`: dispatch on the mode, then notify the API server unless a
      step raised. */
  method Run(mode: string, db: DatabaseService, nationalCrawl: seq<Item>, adminCrawl: seq<Item>, now: Timestamp, c: Commits)
    returns (outcome: RunOutcome)
    requires db.Valid()
    modifies db
    ensures db.Valid()
    ensures (Table(db.rows, db.nextId), outcome) == RunSpec(mode, old(Table(db.rows, db.nextId)), nationalCrawl, adminCrawl, now, c)
  {
    if mode == "national" {
      var r := CrawlAndSaveNational(db, nationalCrawl, now, c.nationalDeleteOk, c.nationalSaveOk);
      if r.Err? {
        return Failed;
      }
    } else if mode == "admin" {
      var r := CrawlAndSaveAdmin(db, adminCrawl, now, c.adminDeleteOk, c.adminSaveOk);
      if r.Err? {
        return Failed;
      }
    } else if mode == "all" {
      var r := CrawlAndSaveNational(db, nationalCrawl, now, c.nationalDeleteOk, c.nationalSaveOk);
      if r.Err? {
        return Failed;
      }
      r := CrawlAndSaveAdmin(db, adminCrawl, now, c.adminDeleteOk, c.adminSaveOk);
      if r.Err? {
        return Failed;
      }
    } else {
      return UnknownMode;
    }
    return Completed;
  }

  // ---------------------------------------------------------------------
  // Properties of a run

  /** An unknown mode changes nothing and does not notify. */
  lemma UnknownModeTouchesNothing(mode: string, t: Table, nationalCrawl: seq<Item>, adminCrawl: seq<Item>, now: Timestamp, c: Commits)
    requires mode != "national" && mode != "admin" && mode != "all"
    ensures RunSpec(mode, t, nationalCrawl, adminCrawl, now, c) == (t, UnknownMode)
  {
  }

  /** A run completes, and so notifies, exactly when the mode is known and
      none of its saves raised; in mode `"all"` a failing national save
      leaves the executive-branch rows as they were: none is removed and
      none is added. */
  lemma RunCompletes(mode: string, t: Table, nationalCrawl: seq<Item>, adminCrawl: seq<Item>, now: Timestamp, c: Commits)
    ensures RunSpec(mode, t, nationalCrawl, adminCrawl, now, c).1 == Completed <==>
      || (mode == "national" && !StepFails(nationalCrawl, c.nationalSaveOk))
      || (mode == "admin" && !StepFails(adminCrawl, c.adminSaveOk))
      || (mode == "all" && !StepFails(nationalCrawl, c.nationalSaveOk) && !StepFails(adminCrawl, c.adminSaveOk))
    ensures mode == "all" && StepFails(nationalCrawl, c.nationalSaveOk) ==>
      forall x: Row :: x.source == Admin ==> (x in RunSpec(mode, t, nationalCrawl, adminCrawl, now, c).0.rows <==> x in t.rows)
  {
    if mode == "all" && StepFails(nationalCrawl, c.nationalSaveOk) {
      DeleteShape(t.rows, National);
    }
  }

  /** A step whose crawl is empty leaves no row of its source behind (when
      the delete commits), and every other row untouched. */
  lemma EmptyCrawlClearsSource(t: Table, source: string, now: Timestamp, saveOk: bool)
    ensures var after := AfterStep(t, source, [], now, true, saveOk);
      && (forall x :: x in after.rows ==> x.source != source)
      && (forall x :: x in t.rows && x.source != source ==> x in after.rows)
  {
    DeleteShape(t.rows, source);
  }

  /** Because the delete runs first, every crawled item of the step's source
      is inserted afresh: the other sources' rows stay in place, in order,
      followed by one new row per crawled item with consecutive ids. */
  lemma DeleteThenSaveInsertsAll(t: Table, source: string, crawled: seq<Item>, now: Timestamp)
    requires crawled != []
    requires forall item :: item in crawled ==> item.source == source
    ensures var after := AfterStep(t, source, crawled, now, true, true);
      var kept := WithoutSource(t.rows, source);
      && |after.rows| == |kept| + |crawled|
      && after.rows[..|kept|] == kept
      && after.rows[|kept|..] == InsertRows(crawled, t.nextId, now)
      && after.nextId == t.nextId + |crawled|
  {
    var kept := WithoutSource(t.rows, source);
    DeleteShape(t.rows, source);
    AllUnmatched(kept, crawled);
    NoHits(kept, crawled);
    SaveAllRows(kept, t.nextId, crawled, now);
    var after := AfterStep(t, source, crawled, now, true, true);
    assert after.rows[..|kept|] == kept;
  }

  lemma {:induction false} AllUnmatched(snapshot: seq<Row>, items: seq<Item>)
    requires forall item :: item in items ==> FindKey(snapshot, item.billNo, item.source).None?
    ensures Unmatched(snapshot, items) == items
  {
    if items != [] {
      var init := items[..|items| - 1];
      assert items[|items| - 1] in items;
      forall item | item in init
        ensures FindKey(snapshot, item.billNo, item.source).None?
      {
        assert item in items;
      }
      AllUnmatched(snapshot, init);
      assert items == init + [items[|items| - 1]];
    }
  }

  lemma {:induction false} NoHits(snapshot: seq<Row>, items: seq<Item>)
    requires forall item :: item in items ==> FindKey(snapshot, item.billNo, item.source).None?
    ensures forall i :: 0 <= i < |snapshot| ==> LastHit(snapshot, items, i).None?
  {
    if items != [] {
      var init := items[..|items| - 1];
      assert items[|items| - 1] in items;
      forall item | item in init
        ensures FindKey(snapshot, item.billNo, item.source).None?
      {
        assert item in items;
      }
      NoHits(snapshot, init);
    }
  }
}

=== FILE: strings.dfy ===
/** Python `str` operations the pipeline relies on: `isspace()`, `strip()`,
    `sub in s`, `s.split(sep)[0]`, `s.split(sep)[1]`, `s.split(c)[-1]` and
    `s.startswith(p)`, on strings as sequences of Unicode code points. */
module Strings {
  import opened Outcomes

  /** Python's `str.isspace()`; the regex class `\s` matches the same characters. */
  predicate IsSpace(c: char) {
    c == ' ' || '\t' <= c <= '\r' || '\U{1C}' <= c <= '\U{1F}' || c == '\U{85}' || c == '\U{A0}'
    || c == '\U{1680}' || '\U{2000}' <= c <= '\U{200A}' || c == '\U{2028}' || c == '\U{2029}'
    || c == '\U{202F}' || c == '\U{205F}' || c == '\U{3000}'
  }

  predicate IsDigit(c: char) {
    '0' <= c <= '9'
  }

  /** The first position at or after `i` that does not hold whitespace. */
  function SkipSpaces(s: string, i: nat): (k: nat)
    requires i <= |s|
    ensures i <= k <= |s|
    ensures forall j :: i <= j < k ==> IsSpace(s[j])
    ensures k < |s| ==> !IsSpace(s[k])
    decreases |s| - i
  {
    if i < |s| && IsSpace(s[i]) then SkipSpaces(s, i + 1) else i
  }

  /** The end of `s[..j]` once its trailing whitespace is dropped. */
  function TrimEnd(s: string, j: nat): (k: nat)
    requires j <= |s|
    ensures k <= j
    ensures forall m :: k <= m < j ==> IsSpace(s[m])
    ensures k > 0 ==> !IsSpace(s[k - 1])
  {
    if j > 0 && IsSpace(s[j - 1]) then TrimEnd(s, j - 1) else j
  }

  /** Bounds of `s.strip()` inside `s`. */
  function StripLo(s: string): nat {
    SkipSpaces(s, 0)
  }

  function StripHi(s: string): (hi: nat)
    ensures StripLo(s) <= hi <= |s|
  {
    var lo := StripLo(s);
    if lo == |s| then lo else TrimEnd(s, |s|)
  }

  /** Python's `s.strip()`: `s` without leading and trailing whitespace. */
  function Strip(s: string): (r: string)
    ensures |r| <= |s|
    ensures r == s[StripLo(s)..StripHi(s)]
    ensures r == [] || (!IsSpace(r[0]) && !IsSpace(r[|r| - 1]))
    ensures forall j :: 0 <= j < StripLo(s) ==> IsSpace(s[j])
    ensures forall j :: StripHi(s) <= j < |s| ==> IsSpace(s[j])
  {
    s[StripLo(s)..StripHi(s)]
  }

  /** A string with no whitespace at either end is its own `strip()`. */
  lemma StripUnchanged(s: string)
    requires s == [] || (!IsSpace(s[0]) && !IsSpace(s[|s| - 1]))
    ensures Strip(s) == s
  {
  }

  /** `strip()` is idempotent. */
  lemma StripIdempotent(s: string)
    ensures Strip(Strip(s)) == Strip(s)
  {
    StripUnchanged(Strip(s));
  }

  /** `strip()` adds no character. */
  lemma StripKeepsOut(s: string, c: char)
    ensures c !in s ==> c !in Strip(s)
  {
    if c in Strip(s) {
      var i :| 0 <= i < |Strip(s)| && Strip(s)[i] == c;
      assert s[StripLo(s) + i] == c;
    }
  }

  predicate OccursAt(s: string, sub: string, i: nat) {
    i + |sub| <= |s| && s[i..i + |sub|] == sub
  }

  /** Leftmost occurrence of `sub` in `s` at or after `i` (`s.find(sub, i)`). */
  function FindFrom(s: string, sub: string, i: nat): (r: Option<nat>)
    ensures r.Some? ==> i <= r.value && OccursAt(s, sub, r.value)
    ensures r.Some? ==> forall j :: i <= j < r.value ==> !OccursAt(s, sub, j)
    ensures r.None? ==> forall j :: i <= j ==> !OccursAt(s, sub, j)
    decreases |s| - i
  {
    if i + |sub| > |s| then None
    else if s[i..i + |sub|] == sub then Some(i)
    else FindFrom(s, sub, i + 1)
  }

  function Find(s: string, sub: string): (r: Option<nat>)
    ensures r.Some? ==> OccursAt(s, sub, r.value) && forall j: nat :: j < r.value ==> !OccursAt(s, sub, j)
    ensures r.None? ==> forall j: nat :: !OccursAt(s, sub, j)
  {
    FindFrom(s, sub, 0)
  }

  /** Python's `sub in s`. */
  predicate Contains(s: string, sub: string) {
    Find(s, sub).Some?
  }

  lemma ContainsAt(s: string, sub: string, i: nat)
    requires OccursAt(s, sub, i)
    ensures Contains(s, sub)
  {
  }

  /** An occurrence inside a slice is an occurrence in the whole string. */
  lemma ContainsInSlice(s: string, lo: nat, hi: nat, sub: string)
    requires lo <= hi <= |s|
    requires Contains(s[lo..hi], sub)
    ensures Contains(s, sub)
  {
    var t := s[lo..hi];
    var j := Find(t, sub).value;
    assert forall k :: 0 <= k < |sub| ==> s[lo + j + k] == t[j + k] == sub[k];
    assert s[lo + j..lo + j + |sub|] == sub;
    ContainsAt(s, sub, lo + j);
  }

  /** `strip()` never creates an occurrence. */
  lemma ContainsStrip(s: string, sub: string)
    ensures Contains(Strip(s), sub) ==> Contains(s, sub)
  {
    if Contains(Strip(s), sub) {
      ContainsInSlice(s, StripLo(s), StripHi(s), sub);
    }
  }

  /** Python's `[c] in s` is sequence membership. */
  lemma ContainsChar(s: string, c: char)
    ensures Contains(s, [c]) <==> c in s
  {
    if c in s {
      var i :| 0 <= i < |s| && s[i] == c;
      assert s[i..i + 1] == [c];
      ContainsAt(s, [c], i);
    }
    if Contains(s, [c]) {
      var i := Find(s, [c]).value;
      assert s[i..i + 1] == [c];
      assert s[i] == c;
    }
  }

  /** Python's `s.split(sep)[0]`: the text before the first `sep`, or all of `s`. */
  function Before(s: string, sep: string): (r: string)
    requires |sep| > 0
    ensures r <= s
    ensures !Contains(s, sep) ==> r == s
    ensures !Contains(r, sep)
  {
    match Find(s, sep)
    case None => s
    case Some(k) =>
      var r := s[..k];
      assert !Contains(r, sep) by {
        if Contains(r, sep) {
          var j := Find(r, sep).value;
          assert r[j..j + |sep|] == s[j..j + |sep|];
          assert OccursAt(s, sep, j);
        }
      }
      r
  }

  /** Splitting at a single character cuts at its first occurrence. */
  lemma BeforeChar(s: string, c: char)
    ensures c !in s ==> Before(s, [c]) == s
    ensures c in s ==> exists j :: 0 <= j < |s| && s[j] == c && c !in s[..j] && Before(s, [c]) == s[..j]
  {
    ContainsChar(s, c);
    ContainsChar(Before(s, [c]), c);
    if c in s {
      var j := Find(s, [c]).value;
      assert s[j..j + 1] == [c];
      assert s[j] == c;
      assert Before(s, [c]) == s[..j];
    }
  }

  /** Python's `s.split(sep)[1]` when `sep in s`: the text after the first
      `sep`, up to the next one. */
  function Second(s: string, sep: string): (r: string)
    requires |sep| > 0 && Contains(s, sep)
    ensures !Contains(r, sep)
  {
    var k := Find(s, sep).value;
    Before(s[k + |sep|..], sep)
  }

  /** Python's `s.split(c)[-1]`: the text after the last `c`, or all of `s`. */
  function AfterLast(s: string, c: char): (r: string)
    ensures c !in r
    ensures |r| <= |s| && r == s[|s| - |r|..]
    ensures c !in s ==> r == s
    ensures c in s ==> |r| < |s| && s[|s| - |r| - 1] == c
  {
    if s == [] then []
    else if s[|s| - 1] == c then []
    else
      var init, last := s[..|s| - 1], s[|s| - 1];
      var tail := AfterLast(init, c);
      assert s[|s| - |tail| - 1..] == init[|init| - |tail|..] + [last];
      assert c in s ==> c in init;
      tail + [last]
  }

  /** Python's `s.startswith(p)`. */
  predicate StartsWith(s: string, p: string) {
    |p| <= |s| && s[..|p|] == p
  }
}

=== FILE: web_scraper.dfy ===
/** `WebScraper` (backend/services/web_scraper.py): the two HTML scrapers.
    Fetching and HTML parsing are inputs here: a listing page is the list of
    link targets found on it, a detail page the texts the selectors find,
    and `None` stands for a request or parse that raised. */
module WebScraper {
  import opened Outcomes
  import opened Strings
  import opened Dates
  import opened PeriodParser
  import opened Records

  // ---------------------------------------------------------------------
  // Text helpers

  /** The "how to submit opinions" markers, in the order they are tried. */
  const OpinionMarkers: seq<string> := ["3. 의견제출", "의견제출", "※ 제출의견", "의견 제출"]

  predicate NonEmptyMarkers(markers: seq<string>) {
    forall i :: 0 <= i < |markers| ==> |markers[i]| > 0
  }

  /** Cut `text` before the first occurrence of the first marker it contains. */
  function CutAtMarkers(text: string, markers: seq<string>): string
    requires NonEmptyMarkers(markers)
  {
    if markers == [] then Strip(text)
    else if Contains(text, markers[0]) then Strip(Before(text, markers[0]))
    else CutAtMarkers(text, markers[1..])
  }

  /** `_extract_until_opinion`. */
  function ExtractUntilOpinion(text: string): string {
    CutAtMarkers(text, OpinionMarkers)
  }

  lemma {:induction false} CutAtMarkersFirst(text: string, markers: seq<string>, p: nat)
    requires NonEmptyMarkers(markers)
    requires p < |markers| && Contains(text, markers[p])
    requires forall q :: 0 <= q < p ==> !Contains(text, markers[q])
    ensures CutAtMarkers(text, markers) == Strip(Before(text, markers[p]))
  {
    if p > 0 {
      assert !Contains(text, markers[0]);
      CutAtMarkersFirst(text, markers[1..], p - 1);
    }
  }

  lemma {:induction false} CutAtMarkersNone(text: string, markers: seq<string>)
    requires NonEmptyMarkers(markers)
    requires forall q :: 0 <= q < |markers| ==> !Contains(text, markers[q])
    ensures CutAtMarkers(text, markers) == Strip(text)
  {
    if markers != [] {
      assert !Contains(text, markers[0]);
      CutAtMarkersNone(text, markers[1..]);
    }
  }

  /** The trimmer returns the stripped text before the first marker present,
      taking markers in priority order, and the result never contains that
      marker. */
  lemma ExtractUntilOpinionCut(text: string, p: nat)
    requires p < |OpinionMarkers| && Contains(text, OpinionMarkers[p])
    requires forall q :: 0 <= q < p ==> !Contains(text, OpinionMarkers[q])
    ensures ExtractUntilOpinion(text) == Strip(Before(text, OpinionMarkers[p]))
    ensures !Contains(ExtractUntilOpinion(text), OpinionMarkers[p])
  {
    CutAtMarkersFirst(text, OpinionMarkers, p);
    ContainsStrip(Before(text, OpinionMarkers[p]), OpinionMarkers[p]);
  }

  /** With no marker in the text, the trimmer only strips, and a second pass
      changes nothing. */
  lemma ExtractUntilOpinionNoMarker(text: string)
    requires forall q :: 0 <= q < |OpinionMarkers| ==> !Contains(text, OpinionMarkers[q])
    ensures ExtractUntilOpinion(text) == Strip(text)
    ensures ExtractUntilOpinion(ExtractUntilOpinion(text)) == ExtractUntilOpinion(text)
  {
    CutAtMarkersNone(text, OpinionMarkers);
    forall q | 0 <= q < |OpinionMarkers|
      ensures !Contains(Strip(text), OpinionMarkers[q])
    {
      ContainsStrip(text, OpinionMarkers[q]);
    }
    CutAtMarkersNone(Strip(text), OpinionMarkers);
    StripIdempotent(text);
  }

  const NationalHost: string := "https://pal.assembly.go.kr"
  const AdminHost: string := "https://opinion.lawmaking.go.kr"

  /** A relative link gets the site's host prefixed; any other link is kept. */
  function Absolutise(href: string, host: string): string {
    if StartsWith(href, "/") then host + href else href
  }

  /** The link always survives as the tail of the URL, and the host is put
      in front exactly when the link is relative. */
  lemma AbsolutiseShape(href: string, host: string)
    requires |host| > 0
    ensures |href| <= |Absolutise(href, host)|
    ensures Absolutise(href, host)[|Absolutise(href, host)| - |href|..] == href
    ensures StartsWith(href, "/") <==> Absolutise(href, host) == host + href
    ensures !StartsWith(href, "/") <==> Absolutise(href, host) == href
  {
    var url := Absolutise(href, host);
    if StartsWith(href, "/") {
      assert url[|url| - |href|..] == href;
      assert url != href;
    }
  }

  /** An absolute URL (one whose host does not start with `/`) is left alone. */
  lemma AbsolutiseIdempotent(href: string, host: string)
    requires |host| > 0 && host[0] != '/'
    ensures Absolutise(Absolutise(href, host), host) == Absolutise(href, host)
  {
    var url := Absolutise(href, host);
    if StartsWith(href, "/") {
      assert url[0] == host[0];
      assert !StartsWith(url, "/");
    }
  }

  const PhoneLabel: string := "전화번호"

  /** The owning department: the text before "전화번호", stripped. */
  function CleanCommittee(raw: string): (r: string)
    ensures !Contains(r, PhoneLabel)
    ensures !Contains(raw, PhoneLabel) ==> r == Strip(raw)
  {
    var b := Before(raw, PhoneLabel);
    ContainsStrip(b, PhoneLabel);
    Strip(b)
  }

  /** The cascading selector lookup: the text of the first selector that
      found an element. */
  function FirstFound(candidates: seq<Option<string>>): (r: Option<string>)
    ensures r.None? <==> forall i :: 0 <= i < |candidates| ==> candidates[i].None?
    ensures forall i :: 0 <= i < |candidates| && candidates[i].Some? && (forall j :: 0 <= j < i ==> candidates[j].None?) ==> r == candidates[i]
  {
    if candidates == [] then None
    else if candidates[0].Some? then candidates[0]
    else
      var r := FirstFound(candidates[1..]);
      assert forall i :: 1 <= i < |candidates| ==> candidates[i] == candidates[1..][i - 1];
      r
  }

  // ---------------------------------------------------------------------
  // Executive-branch detail page

  /** What the selectors find on an executive-branch detail page. Each field
      lists the lookups in the order the source tries them (`None` = no
      element); `linkHref` is the link element's `href` ("" when it has none). */
  datatype AdminPage = AdminPage(
    titleElems: seq<Option<string>>,
    committeeElems: seq<Option<string>>,
    periodElems: seq<Option<string>>,
    contentElem: Option<string>,
    linkHref: Option<string>)

  /** `_scrape_admin_detail_page`: `None` for a failed fetch, a missing or
      unreadable period, a period not starting on `target`, or one already
      closed before `today`. */
  function ScrapeAdminDetail(page: Option<AdminPage>, target: string, today: Date): (r: Option<AdminRow>)
    ensures r.Some? ==> r.value.proposer == "" && r.value.source == Admin && r.value.startDate == target
  {
    match page
    case None => None
    case Some(p) =>
      var title := FirstFound(p.titleElems).GetOr("제목 없음");
      var committee := match FirstFound(p.committeeElems)
        case Some(raw) => CleanCommittee(raw)
        case None => "소관위 없음";
      match FirstFound(p.periodElems)
      case None => None
      case Some(periodText) =>
        match ParsePeriod(periodText)
        case NoMatch => None
        case Invalid => None
        case Period(start, end) =>
          if Render(start) != target then None
          else if IsBefore(end, today) then None
          else
            var content := match p.contentElem
              case Some(raw) => ExtractUntilOpinion(raw)
              case None => "내용 없음";
            var link := match p.linkHref
              case Some(href) => Strip(href)
              case None => "링크 없음";
            Some(AdminRow(title, committee, "", Render(start), Render(end), content, link, Admin))
  }

  /** An executive-branch record is kept exactly when its period parses,
      starts on the target date and has not ended before today; the kept
      record carries the period's dates. */
  lemma AdminDetailKept(page: Option<AdminPage>, target: string, today: Date)
    ensures ScrapeAdminDetail(page, target, today).Some? <==>
      && page.Some?
      && FirstFound(page.value.periodElems).Some?
      && ParsePeriod(FirstFound(page.value.periodElems).value).Period?
      && Render(ParsePeriod(FirstFound(page.value.periodElems).value).start) == target
      && !IsBefore(ParsePeriod(FirstFound(page.value.periodElems).value).end, today)
    ensures ScrapeAdminDetail(page, target, today).Some? ==>
      var period := ParsePeriod(FirstFound(page.value.periodElems).value);
      && IsValid(period.start) && IsValid(period.end)
      && ScrapeAdminDetail(page, target, today).value.endDate == Render(period.end)
  {
  }

  // ---------------------------------------------------------------------
  // Legislature detail page

  /** What the selectors find on a legislature detail page: the title
      element's text, the cell texts of every row of every table, and the
      text of every `div`, in document order. */
  datatype NationalPage = NationalPage(
    title: Option<string>,
    tables: seq<seq<seq<string>>>,
    divs: seq<string>)

  /** The fields the table rows set. */
  datatype Fields = Fields(billNo: string, proposer: string, committee: string, startDate: string, endDate: string)

  /** Which branch of the heading `elif` chain a row takes. */
  datatype RowKind = BillNoRow | ProposerRow | CommitteeRow | PeriodRow | OtherRow

  function Classify(heading: string): RowKind {
    if Contains(heading, "의안번호") || Contains(heading, "안건번호") then BillNoRow
    else if Contains(heading, "제안자") || Contains(heading, "발의자") then ProposerRow
    else if Contains(heading, "소관위") || Contains(heading, "위원회") then CommitteeRow
    else if Contains(heading, "게시") && Contains(heading, "기간") then PeriodRow
    else OtherRow
  }

  /** The notice period cell: split on `~` into start and end, or both the
      whole value when there is no `~`. */
  function SplitPeriod(value: string): (string, string) {
    if Contains(value, "~") then (Strip(Before(value, "~")), Strip(Second(value, "~")))
    else (Strip(value), Strip(value))
  }

  /** Neither half of a split period holds `~`, and a period without `~`
      starts and ends on the same text. */
  lemma SplitPeriodParts(value: string)
    ensures !Contains(SplitPeriod(value).0, "~") && !Contains(SplitPeriod(value).1, "~")
    ensures !Contains(value, "~") <==> SplitPeriod(value) == (Strip(value), Strip(value))
  {
    if Contains(value, "~") {
      var a, b := Before(value, "~"), Second(value, "~");
      ContainsStrip(a, "~");
      ContainsStrip(b, "~");
      ContainsStrip(value, "~");
    } else {
      ContainsStrip(value, "~");
    }
  }

  function DefaultFields(target: string): Fields {
    Fields("(없음)", "(제안자 없음)", "(소관위 없음)", target, target)
  }

  /** One table row: rows with fewer than two cells are ignored, and a row
      sets at most one field, chosen by its heading. */
  function ApplyRow(f: Fields, cells: seq<string>): (r: Fields)
    ensures |cells| < 2 ==> r == f
    ensures |cells| >= 2 && Classify(cells[0]) == OtherRow ==> r == f
    ensures (|cells| < 2 || Classify(cells[0]) != BillNoRow) ==> r.billNo == f.billNo
    ensures (|cells| < 2 || Classify(cells[0]) != ProposerRow) ==> r.proposer == f.proposer
    ensures (|cells| < 2 || Classify(cells[0]) != CommitteeRow) ==> r.committee == f.committee
    ensures (|cells| < 2 || Classify(cells[0]) != PeriodRow) ==> r.startDate == f.startDate && r.endDate == f.endDate
  {
    if |cells| < 2 then f
    else
      var value := cells[1];
      match Classify(cells[0])
      case BillNoRow => f.(billNo := value)
      case ProposerRow => f.(proposer := value)
      case CommitteeRow => f.(committee := value)
      case PeriodRow => f.(startDate := SplitPeriod(value).0, endDate := SplitPeriod(value).1)
      case OtherRow => f
  }

  /** The rows, applied in document order. */
  function ApplyRows(f: Fields, rows: seq<seq<string>>): Fields {
    if rows == [] then f else ApplyRow(ApplyRows(f, rows[..|rows| - 1]), rows[|rows| - 1])
  }

  /** The rows of all tables, table after table. */
  function Flatten(tables: seq<seq<seq<string>>>): seq<seq<string>> {
    if tables == [] then [] else Flatten(tables[..|tables| - 1]) + tables[|tables| - 1]
  }

  /** The value of the last row of the given kind, if any. */
  function LastValue(rows: seq<seq<string>>, kind: RowKind): (r: Option<string>)
    ensures r.Some? ==> exists i :: 0 <= i < |rows| && |rows[i]| >= 2 && Classify(rows[i][0]) == kind && rows[i][1] == r.value
    ensures r.None? ==> forall i :: 0 <= i < |rows| && |rows[i]| >= 2 ==> Classify(rows[i][0]) != kind
  {
    if rows == [] then None
    else
      var last := rows[|rows| - 1];
      if |last| >= 2 && Classify(last[0]) == kind then Some(last[1])
      else LastValue(rows[..|rows| - 1], kind)
  }

  /** Later rows overwrite earlier ones: each field holds the value of the
      last row of its kind, and a field no row names keeps its default. */
  lemma {:induction false} ApplyRowsLastWins(f: Fields, rows: seq<seq<string>>)
    ensures var r := ApplyRows(f, rows);
      && r.billNo == LastValue(rows, BillNoRow).GetOr(f.billNo)
      && r.proposer == LastValue(rows, ProposerRow).GetOr(f.proposer)
      && r.committee == LastValue(rows, CommitteeRow).GetOr(f.committee)
      && (LastValue(rows, PeriodRow).None? ==> r.startDate == f.startDate && r.endDate == f.endDate)
      && (LastValue(rows, PeriodRow).Some? ==> (r.startDate, r.endDate) == SplitPeriod(LastValue(rows, PeriodRow).value))
  {
    if rows != [] {
      ApplyRowsLastWins(f, rows[..|rows| - 1]);
    }
  }

  predicate IsContentDiv(text: string) {
    |text| > 50 && (Contains(text, "내용") || Contains(text, "요약") || Contains(text, "개요"))
  }

  /** The first `div` whose text is longer than 50 characters and mentions
      내용, 요약 or 개요. */
  function FirstContent(divs: seq<string>): (r: Option<string>)
    ensures r.None? <==> forall i :: 0 <= i < |divs| ==> !IsContentDiv(divs[i])
    ensures forall i :: 0 <= i < |divs| && IsContentDiv(divs[i]) && (forall j :: 0 <= j < i ==> !IsContentDiv(divs[j])) ==> r == Some(divs[i])
  {
    if divs == [] then None
    else if IsContentDiv(divs[0]) then Some(divs[0])
    else
      var r := FirstContent(divs[1..]);
      assert forall i :: 1 <= i < |divs| ==> divs[i] == divs[1..][i - 1];
      r
  }

  /** `_scrape_national_detail_page` as a function of the page. */
  function NationalDetail(page: Option<NationalPage>, url: string, target: string): Option<NationalRow> {
    match page
    case None => None
    case Some(p) =>
      var f := ApplyRows(DefaultFields(target), Flatten(p.tables));
      if f.startDate != target then None
      else
        Some(NationalRow(f.billNo, p.title.GetOr("(제목 없음)"), f.proposer, f.committee, url,
                         f.endDate, FirstContent(p.divs).GetOr("(내용 없음)"), f.startDate))
  }

  /** A legislature record is kept exactly when its start date string equals
      the target; a page without a period row defaults to the target and is
      kept. */
  lemma NationalDetailKept(page: NationalPage, url: string, target: string)
    ensures NationalDetail(Some(page), url, target).Some? <==>
      ApplyRows(DefaultFields(target), Flatten(page.tables)).startDate == target
    ensures LastValue(Flatten(page.tables), PeriodRow).None? ==>
      && NationalDetail(Some(page), url, target).Some?
      && NationalDetail(Some(page), url, target).value.endDate == target
    ensures NationalDetail(Some(page), url, target).Some? ==>
      NationalDetail(Some(page), url, target).value.startDate == target
  {
    ApplyRowsLastWins(DefaultFields(target), Flatten(page.tables));
  }

  /** The nested loop of `_scrape_national_detail_page` over every row of
      every table, reassigning the five fields as rows are met. */
  method ReadTables(tables: seq<seq<seq<string>>>, target: string) returns (f: Fields)
    ensures f == ApplyRows(DefaultFields(target), Flatten(tables))
  {
    var billNo, proposer, committee := "(없음)", "(제안자 없음)", "(소관위 없음)";
    var notiStDt, notiEdDt := target, target;
    for t := 0 to |tables|
      invariant Fields(billNo, proposer, committee, notiStDt, notiEdDt) == ApplyRows(DefaultFields(target), Flatten(tables[..t]))
    {
      var rows := tables[t];
      ghost var before := Flatten(tables[..t]);
      assert before + rows[..0] == before;
      for i := 0 to |rows|
        invariant Fields(billNo, proposer, committee, notiStDt, notiEdDt) == ApplyRows(DefaultFields(target), before + rows[..i])
      {
        var cells := rows[i];
        ghost var prev := Fields(billNo, proposer, committee, notiStDt, notiEdDt);
        if |cells| >= 2 {
          var heading, value := cells[0], cells[1];
          ghost var kind := Classify(heading);
          if Contains(heading, "의안번호") || Contains(heading, "안건번호") {
            assert kind == BillNoRow;
            billNo := value;
          } else if Contains(heading, "제안자") || Contains(heading, "발의자") {
            assert kind == ProposerRow;
            proposer := value;
          } else if Contains(heading, "소관위") || Contains(heading, "위원회") {
            assert kind == CommitteeRow;
            committee := value;
          } else if Contains(heading, "게시") && Contains(heading, "기간") {
            assert kind == PeriodRow;
            if Contains(value, "~") {
              notiStDt := Strip(Before(value, "~"));
              notiEdDt := Strip(Second(value, "~"));
            } else {
              notiStDt := Strip(value);
              notiEdDt := Strip(value);
            }
          } else {
            assert kind == OtherRow;
          }
        }
        assert Fields(billNo, proposer, committee, notiStDt, notiEdDt) == ApplyRow(prev, cells);
        assert (before + rows[..i + 1])[..|before + rows[..i + 1]| - 1] == before + rows[..i];
      }
      assert rows[..|rows|] == rows;
      assert tables[..t + 1][..t] == tables[..t];
    }
    assert tables[..|tables|] == tables;
    f := Fields(billNo, proposer, committee, notiStDt, notiEdDt);
  }

  /** The `div` loop of `_scrape_national_detail_page`, which stops at the
      first content-like text. */
  method FindContent(divs: seq<string>) returns (content: string)
    ensures content == FirstContent(divs).GetOr("(내용 없음)")
  {
    content := "(내용 없음)";
    var k := 0;
    while k < |divs|
      invariant 0 <= k <= |divs|
      invariant forall j :: 0 <= j < k ==> !IsContentDiv(divs[j])
      invariant content == "(내용 없음)"
    {
      var divText := divs[k];
      if |divText| > 50 && (Contains(divText, "내용") || Contains(divText, "요약") || Contains(divText, "개요")) {
        content := divText;
        break;
      }
      k := k + 1;
    }
  }

  /** `_scrape_national_detail_page`: defaults, the title, the row fold,
      the content search, then the date filter. */
  method ScrapeNationalDetail(page: Option<NationalPage>, url: string, target: string) returns (r: Option<NationalRow>)
    ensures r == NationalDetail(page, url, target)
  {
    if page.None? {
      return None;
    }
    var p := page.value;
    var title := "(제목 없음)";
    if p.title.Some? {
      title := p.title.value;
    }
    var f := ReadTables(p.tables, target);
    var content := FindContent(p.divs);
    if f.startDate != target {
      return None;
    }
    r := Some(NationalRow(f.billNo, title, f.proposer, f.committee, url, f.endDate, content, f.startDate));
  }

  // ---------------------------------------------------------------------
  // Listing drivers

  /** Page ceilings: the legislature listing is read for at most ten pages,
      the executive-branch listing for at most five. */
  const NationalPageLimit: nat := 10
  const AdminPageLimit: nat := 5

  /** The detail links of one listing page: the non-empty `href`s of its rows,
      made absolute, in order ("" stands for a row without a link). */
  function PageLinks(hrefs: seq<string>, host: string): (links: seq<string>)
    ensures |links| <= |hrefs|
  {
    if hrefs == [] then []
    else
      var init := PageLinks(hrefs[..|hrefs| - 1], host);
      var href := hrefs[|hrefs| - 1];
      if href == "" then init else init + [Absolutise(href, host)]
  }

  function Prepend<T>(prefix: seq<T>, rest: Option<seq<T>>): (r: Option<seq<T>>)
    ensures r.Some? <==> rest.Some?
    ensures prefix == [] ==> r == rest
  {
    match rest
    case None => None
    case Some(r) => assert [] + r == r; Some(prefix + r)
  }

  lemma PrependTwice<T>(first: seq<T>, second: seq<T>, rest: Option<seq<T>>)
    ensures Prepend(first, Prepend(second, rest)) == Prepend(first + second, rest)
  {
    if rest.Some? {
      assert first + (second + rest.value) == (first + second) + rest.value;
    }
  }

  /** The results of visiting each URL in order, keeping those that yield
      a record; a URL whose visit fails yields nothing. */
  function KeepVisited<R>(urls: seq<string>, visit: string -> Option<R>): (r: seq<R>)
    ensures |r| <= |urls|
  {
    if urls == [] then []
    else
      var init := KeepVisited(urls[..|urls| - 1], visit);
      match visit(urls[|urls| - 1])
      case None => init
      case Some(row) => init + [row]
  }

  lemma {:induction false} KeepVisitedFrom<R>(urls: seq<string>, visit: string -> Option<R>, row: R)
    requires row in KeepVisited(urls, visit)
    ensures exists i :: 0 <= i < |urls| && visit(urls[i]) == Some(row)
  {
    var init := KeepVisited(urls[..|urls| - 1], visit);
    if row in init {
      KeepVisitedFrom(urls[..|urls| - 1], visit, row);
      var i :| 0 <= i < |urls| - 1 && visit(urls[..|urls| - 1][i]) == Some(row);
      assert urls[..|urls| - 1][i] == urls[i];
    } else {
      assert visit(urls[|urls| - 1]) == Some(row);
    }
  }

  /** Reading listing rows in two runs gives the links of the first run
      followed by those of the second. */
  lemma {:induction false} PageLinksConcat(a: seq<string>, b: seq<string>, host: string)
    ensures PageLinks(a + b, host) == PageLinks(a, host) + PageLinks(b, host)
    decreases |b|
  {
    if b == [] {
      assert a + b == a;
    } else {
      var b' := b[..|b| - 1];
      assert (a + b)[..|a + b| - 1] == a + b';
      assert (a + b)[|a + b| - 1] == b[|b| - 1];
      PageLinksConcat(a, b', host);
    }
  }

  /** The links of a page, row by row: every non-empty `href` contributes
      its absolutised URL, in row order, and an empty one contributes
      nothing; so every link is the absolutised form of a non-empty `href`,
      and every non-empty `href` yields a link. */
  lemma PageLinksAt(hrefs: seq<string>, host: string, i: nat)
    requires i < |hrefs|
    ensures PageLinks(hrefs, host) ==
      PageLinks(hrefs[..i], host) + (if hrefs[i] == "" then [] else [Absolutise(hrefs[i], host)]) + PageLinks(hrefs[i + 1..], host)
    ensures hrefs[i] != "" ==> Absolutise(hrefs[i], host) in PageLinks(hrefs, host)
  {
    assert hrefs == hrefs[..i] + [hrefs[i]] + hrefs[i + 1..];
    PageLinksConcat(hrefs[..i] + [hrefs[i]], hrefs[i + 1..], host);
    PageLinksConcat(hrefs[..i], [hrefs[i]], host);
    assert [hrefs[i]][..0] == [];
  }

  lemma {:induction false} PageLinksFrom(hrefs: seq<string>, host: string)
    ensures forall url :: url in PageLinks(hrefs, host) ==>
      exists i :: 0 <= i < |hrefs| && hrefs[i] != "" && url == Absolutise(hrefs[i], host)
    ensures PageLinks(hrefs, host) == [] <==> forall i :: 0 <= i < |hrefs| ==> hrefs[i] == ""
  {
    if hrefs != [] {
      var init := hrefs[..|hrefs| - 1];
      PageLinksFrom(init, host);
      assert forall i :: 0 <= i < |init| ==> init[i] == hrefs[i];
      assert forall i :: 0 <= i < |hrefs| ==> hrefs[i] == "" ==> (i < |init| || i == |hrefs| - 1);
    }
  }

  /** What visiting one link contributes. */
  function VisitOne<R>(visit: string -> Option<R>, url: string): seq<R> {
    match visit(url)
    case None => []
    case Some(row) => [row]
  }

  /** The visits, link by link: a link whose visit yields a record
      contributes that record at its place in link order; a failing visit
      contributes nothing and the remaining links are still visited. */
  lemma {:induction false} KeepVisitedAt<R>(urls: seq<string>, visit: string -> Option<R>, i: nat)
    requires i < |urls|
    ensures KeepVisited(urls, visit) == KeepVisited(urls[..i], visit) + VisitOne(visit, urls[i]) + KeepVisited(urls[i + 1..], visit)
    decreases |urls|
  {
    var init := urls[..|urls| - 1];
    KeepVisitedLast(urls, visit);
    if i == |urls| - 1 {
      assert urls[..i] == init;
      assert urls[i + 1..] == [];
    } else {
      KeepVisitedAt(init, visit, i);
      assert init[..i] == urls[..i];
      assert init[i] == urls[i];
      var tail := urls[i + 1..];
      assert tail[..|tail| - 1] == init[i + 1..];
      assert tail[|tail| - 1] == urls[|urls| - 1];
      KeepVisitedLast(tail, visit);
    }
  }

  /** The last link's contribution comes last. */
  lemma KeepVisitedLast<R>(urls: seq<string>, visit: string -> Option<R>)
    requires urls != []
    ensures KeepVisited(urls, visit) == KeepVisited(urls[..|urls| - 1], visit) + VisitOne(visit, urls[|urls| - 1])
  {
  }

  /** No successful visit is lost. */
  lemma KeepVisitedHas<R>(urls: seq<string>, visit: string -> Option<R>, i: nat)
    requires i < |urls|
    ensures visit(urls[i]).Some? ==> visit(urls[i]).value in KeepVisited(urls, visit)
  {
    KeepVisitedAt(urls, visit, i);
    var prefix := KeepVisited(urls[..i], visit);
    assert |VisitOne(visit, urls[i])| > 0 ==> KeepVisited(urls, visit)[|prefix|] == VisitOne(visit, urls[i])[0];
  }

  /** The links collected from listing page `page` on; `None` when a listing
      request raises. Collection stops at a page with no rows or no links,
      and after page ten. */
  function NationalLinksFrom(listing: nat -> Option<seq<string>>, page: nat): Option<seq<string>>
    requires 1 <= page <= NationalPageLimit
    decreases NationalPageLimit - page
  {
    match listing(page)
    case None => None
    case Some(rows) =>
      var links := PageLinks(rows, NationalHost);
      if rows == [] || links == [] then Some([])
      else if page + 1 > NationalPageLimit then Some(links)
      else Prepend(links, NationalLinksFrom(listing, page + 1))
  }

  /** Visiting one legislature detail page. */
  function NationalVisit(detail: string -> Option<NationalPage>, target: string): string -> Option<NationalRow> {
    url => NationalDetail(detail(url), url, target)
  }

  /** `get_national_legislation_data` as a function of the two sites. */
  function NationalScrape(listing: nat -> Option<seq<string>>, detail: string -> Option<NationalPage>, target: string): seq<NationalRow> {
    match NationalLinksFrom(listing, 1)
    case None => []
    case Some(links) => KeepVisited(links, NationalVisit(detail, target))
  }

  /** What reading one listing page tells the page loop: the request
      raised, collection ends with these last items, or it goes on to the
      next page after these items. */
  datatype PageStep<T> = Raised | Done(items: seq<T>) | Continue(items: seq<T>)

  /** The body of the page loop of `get_national_legislation_data`: read
      page `page` and collect its links. */
  method ReadNationalPage(listing: nat -> Option<seq<string>>, page: nat) returns (step: PageStep<string>)
    requires 1 <= page <= NationalPageLimit
    ensures step.Raised? ==> NationalLinksFrom(listing, page).None?
    ensures step.Done? ==> NationalLinksFrom(listing, page) == Some(step.items)
    ensures step.Continue? ==>
      page + 1 <= NationalPageLimit &&
      NationalLinksFrom(listing, page) == Prepend(step.items, NationalLinksFrom(listing, page + 1))
  {
    var response := listing(page);
    if response.None? {
      return Raised;
    }
    var rows := response.value;
    if rows == [] {
      return Done([]);
    }
    var pageLinks: seq<string> := [];
    for i := 0 to |rows|
      invariant pageLinks == PageLinks(rows[..i], NationalHost)
    {
      var href := rows[i];
      if href != "" {
        var fullUrl := Absolutise(href, NationalHost);
        pageLinks := pageLinks + [fullUrl];
      }
      assert rows[..i + 1][..i] == rows[..i];
    }
    assert rows[..|rows|] == rows;
    if pageLinks == [] {
      return Done([]);
    }
    if page + 1 > NationalPageLimit {
      return Done(pageLinks);
    }
    return Continue(pageLinks);
  }

  /** The link-collecting half of `get_national_legislation_data`: read
      listing pages in order until one is empty, has no links or is the
      tenth; `None` when a listing request raises. */
  method CollectNationalLinks(listing: nat -> Option<seq<string>>) returns (links: Option<seq<string>>)
    ensures links == NationalLinksFrom(listing, 1)
  {
    ghost var total := NationalLinksFrom(listing, 1);
    var allLinks: seq<string> := [];
    var page: nat := 1;
    while true
      invariant 1 <= page <= NationalPageLimit
      invariant total == Prepend(allLinks, NationalLinksFrom(listing, page))
      decreases NationalPageLimit - page
    {
      var step := ReadNationalPage(listing, page);
      match step
      case Raised =>
        return None;
      case Done(pageLinks) =>
        return Some(allLinks + pageLinks);
      case Continue(pageLinks) =>
        PrependTwice(allLinks, pageLinks, NationalLinksFrom(listing, page + 1));
        allLinks := allLinks + pageLinks;
        page := page + 1;
    }
  }

  /** The visiting half of `get_national_legislation_data`: scrape every
      collected link in order, keeping the records that are returned. */
  method VisitNationalLinks(links: seq<string>, detail: string -> Option<NationalPage>, target: string)
    returns (results: seq<NationalRow>)
    ensures results == KeepVisited(links, NationalVisit(detail, target))
  {
    results := [];
    for i := 0 to |links|
      invariant results == KeepVisited(links[..i], NationalVisit(detail, target))
    {
      var detailUrl := links[i];
      var detailData := ScrapeNationalDetail(detail(detailUrl), detailUrl, target);
      assert detailData == NationalVisit(detail, target)(detailUrl);
      if detailData.Some? {
        results := results + [detailData.value];
      }
      assert links[..i + 1][..i] == links[..i];
    }
    assert links[..|links|] == links;
  }

  /** `get_national_legislation_data`: collect links page by page, then
      visit every detail page; a listing request that raises yields no
      records at all. `listing(n)` is the answer to the request for page
      `n`, `detail(url)` the answer for a detail URL. */
  method GetNationalLegislationData(listing: nat -> Option<seq<string>>, detail: string -> Option<NationalPage>, target: string)
    returns (results: seq<NationalRow>)
    ensures results == NationalScrape(listing, detail, target)
  {
    var links := CollectNationalLinks(listing);
    if links.None? {
      return [];
    }
    results := VisitNationalLinks(links.value, detail, target);
  }

  /** Visiting one executive-branch detail page. */
  function AdminVisit(detail: string -> Option<AdminPage>, target: string, today: Date): string -> Option<AdminRow> {
    url => ScrapeAdminDetail(detail(url), target, today)
  }

  /** The records collected from listing page `page` on; `None` when a
      listing request raises. A page's links are visited as soon as the
      page is read; collection stops at a page with no links or with no
      kept record, and after page five. */
  function AdminFrom(listing: nat -> Option<seq<string>>, visit: string -> Option<AdminRow>, page: nat): Option<seq<AdminRow>>
    requires 1 <= page <= AdminPageLimit
    decreases AdminPageLimit - page
  {
    match listing(page)
    case None => None
    case Some(hrefs) =>
      if hrefs == [] then Some([])
      else
        var kept := KeepVisited(PageLinks(hrefs, AdminHost), visit);
        if kept == [] then Some([])
        else if page + 1 > AdminPageLimit then Some(kept)
        else Prepend(kept, AdminFrom(listing, visit, page + 1))
  }

  /** `get_admin_legislation_data` as a function of the two sites. */
  function AdminScrape(listing: nat -> Option<seq<string>>, detail: string -> Option<AdminPage>, target: string, today: Date): seq<AdminRow> {
    AdminFrom(listing, AdminVisit(detail, target, today), 1).GetOr([])
  }

  /** The inner loop of `get_admin_legislation_data` over the links of one
      listing page; `visit` scrapes one detail page. */
  method ScrapeAdminListingPage(listItems: seq<string>, visit: string -> Option<AdminRow>)
    returns (pageResults: seq<AdminRow>)
    ensures pageResults == KeepVisited(PageLinks(listItems, AdminHost), visit)
  {
    pageResults := [];
    for i := 0 to |listItems|
      invariant pageResults == KeepVisited(PageLinks(listItems[..i], AdminHost), visit)
    {
      var href := listItems[i];
      assert listItems[..i + 1][..i] == listItems[..i];
      if href != "" {
        var detailUrl := Absolutise(href, AdminHost);
        var detailData := visit(detailUrl);
        ghost var links := PageLinks(listItems[..i], AdminHost);
        assert PageLinks(listItems[..i + 1], AdminHost) == links + [detailUrl];
        assert (links + [detailUrl])[..|links|] == links;
        if detailData.Some? {
          pageResults := pageResults + [detailData.value];
        }
      }
    }
    assert listItems[..|listItems|] == listItems;
  }

  /** The body of the page loop of `get_admin_legislation_data`: read page
      `page` and scrape its detail pages. */
  method ReadAdminPage(listing: nat -> Option<seq<string>>, visit: string -> Option<AdminRow>, page: nat)
    returns (step: PageStep<AdminRow>)
    requires 1 <= page <= AdminPageLimit
    ensures step.Raised? ==> AdminFrom(listing, visit, page).None?
    ensures step.Done? ==> AdminFrom(listing, visit, page) == Some(step.items)
    ensures step.Continue? ==>
      page + 1 <= AdminPageLimit &&
      AdminFrom(listing, visit, page) == Prepend(step.items, AdminFrom(listing, visit, page + 1))
  {
    var response := listing(page);
    if response.None? {
      return Raised;
    }
    var listItems := response.value;
    if listItems == [] {
      return Done([]);
    }
    var pageResults := ScrapeAdminListingPage(listItems, visit);
    if pageResults == [] {
      return Done([]);
    }
    if page + 1 > AdminPageLimit {
      return Done(pageResults);
    }
    return Continue(pageResults);
  }

  /** The page loop of `get_admin_legislation_data`, for any way `visit` of
      scraping one detail page. */
  method CollectAdminPages(listing: nat -> Option<seq<string>>, visit: string -> Option<AdminRow>)
    returns (results: seq<AdminRow>)
    ensures results == AdminFrom(listing, visit, 1).GetOr([])
  {
    ghost var total := AdminFrom(listing, visit, 1);
    results := [];
    var page: nat := 1;
    while true
      invariant 1 <= page <= AdminPageLimit
      invariant total == Prepend(results, AdminFrom(listing, visit, page))
      decreases AdminPageLimit - page
    {
      var step := ReadAdminPage(listing, visit, page);
      match step
      case Raised =>
        return [];
      case Done(pageResults) =>
        results := results + pageResults;
        break;
      case Continue(pageResults) =>
        PrependTwice(results, pageResults, AdminFrom(listing, visit, page + 1));
        results := results + pageResults;
        page := page + 1;
    }
  }

  /** `get_admin_legislation_data`: for each listing page, visit its detail
      pages at once and keep the records that pass the date filter; a
      listing request that raises yields no records at all. */
  method GetAdminLegislationData(listing: nat -> Option<seq<string>>, detail: string -> Option<AdminPage>, target: string, today: Date)
    returns (results: seq<AdminRow>)
    ensures results == AdminScrape(listing, detail, target, today)
  {
    results := CollectAdminPages(listing, AdminVisit(detail, target, today));
  }

  // ---------------------------------------------------------------------
  // Properties of the listing drivers

  /** Listing pages after the tenth, and after the first page without links,
      are never read: two sites that agree up to that page give the same
      links. */
  lemma {:induction false} NationalLinksAgree(l1: nat -> Option<seq<string>>, l2: nat -> Option<seq<string>>, page: nat, last: nat)
    requires 1 <= page <= last <= NationalPageLimit
    requires forall k :: page <= k <= last ==> l1(k) == l2(k)
    requires last == NationalPageLimit || (l1(last).Some? && PageLinks(l1(last).value, NationalHost) == [])
    ensures NationalLinksFrom(l1, page) == NationalLinksFrom(l2, page)
    decreases last - page
  {
    if page < last {
      NationalLinksAgree(l1, l2, page + 1, last);
    }
  }

  /** The legislature scrape reads at most ten listing pages and none after
      the first page without links. */
  lemma NationalScrapeReadsPrefix(l1: nat -> Option<seq<string>>, l2: nat -> Option<seq<string>>, detail: string -> Option<NationalPage>, target: string, last: nat)
    requires 1 <= last <= NationalPageLimit
    requires forall k :: 1 <= k <= last ==> l1(k) == l2(k)
    requires last == NationalPageLimit || (l1(last).Some? && PageLinks(l1(last).value, NationalHost) == [])
    ensures NationalScrape(l1, detail, target) == NationalScrape(l2, detail, target)
  {
    NationalLinksAgree(l1, l2, 1, last);
  }

  /** A listing request that raises after pages full of links discards them
      all: the whole source yields nothing. */
  lemma {:induction false} NationalLinksFail(listing: nat -> Option<seq<string>>, page: nat, failing: nat)
    requires 1 <= page <= failing <= NationalPageLimit
    requires listing(failing).None?
    requires forall k :: page <= k < failing ==> listing(k).Some? && PageLinks(listing(k).value, NationalHost) != []
    ensures NationalLinksFrom(listing, page).None?
    decreases failing - page
  {
    if page < failing {
      NationalLinksFail(listing, page + 1, failing);
    }
  }

  lemma NationalScrapeFails(listing: nat -> Option<seq<string>>, detail: string -> Option<NationalPage>, target: string, failing: nat)
    requires 1 <= failing <= NationalPageLimit
    requires listing(failing).None?
    requires forall k :: 1 <= k < failing ==> listing(k).Some? && PageLinks(listing(k).value, NationalHost) != []
    ensures NationalScrape(listing, detail, target) == []
  {
    NationalLinksFail(listing, 1, failing);
  }

  /** Every legislature record the scrape returns starts on the target date
      and comes from visiting one of the collected links. */
  lemma NationalScrapeWindow(listing: nat -> Option<seq<string>>, detail: string -> Option<NationalPage>, target: string)
    ensures forall row :: row in NationalScrape(listing, detail, target) ==> row.startDate == target
    ensures forall row :: row in NationalScrape(listing, detail, target) ==>
      && NationalLinksFrom(listing, 1).Some?
      && exists url :: url in NationalLinksFrom(listing, 1).value && NationalVisit(detail, target)(url) == Some(row)
  {
    var links := NationalLinksFrom(listing, 1);
    if links.Some? {
      var visit := NationalVisit(detail, target);
      forall row: NationalRow | row in KeepVisited(links.value, visit)
        ensures row.startDate == target
        ensures exists url :: url in links.value && visit(url) == Some(row)
      {
        KeepVisitedFrom(links.value, visit, row);
        var i :| 0 <= i < |links.value| && visit(links.value[i]) == Some(row);
        var url := links.value[i];
        NationalDetailKept(detail(url).value, url, target);
        assert url in links.value;
      }
    }
  }

  /** When no listing request raises, the links of every page read are
      collected: those of page `k`, provided the pages before it all had
      links. */
  lemma {:induction false} NationalLinksInclude(listing: nat -> Option<seq<string>>, page: nat, k: nat)
    requires 1 <= page <= k <= NationalPageLimit
    requires NationalLinksFrom(listing, page).Some?
    requires forall m :: page <= m < k ==> listing(m).Some? && PageLinks(listing(m).value, NationalHost) != []
    ensures listing(k).Some?
    ensures forall url :: url in PageLinks(listing(k).value, NationalHost) ==> url in NationalLinksFrom(listing, page).value
    decreases k - page
  {
    if page < k {
      assert listing(page).value != [];
      NationalLinksInclude(listing, page + 1, k);
    }
  }

  /** The scrape does return records: when no listing request raises, every
      link of a page read whose detail page yields a record contributes
      that record. */
  lemma NationalScrapeKeeps(listing: nat -> Option<seq<string>>, detail: string -> Option<NationalPage>, target: string, k: nat)
    requires 1 <= k <= NationalPageLimit
    requires NationalLinksFrom(listing, 1).Some?
    requires forall m :: 1 <= m < k ==> listing(m).Some? && PageLinks(listing(m).value, NationalHost) != []
    ensures listing(k).Some?
    ensures forall url :: url in PageLinks(listing(k).value, NationalHost) && NationalVisit(detail, target)(url).Some? ==>
      NationalVisit(detail, target)(url).value in NationalScrape(listing, detail, target)
  {
    NationalLinksInclude(listing, 1, k);
    var links := NationalLinksFrom(listing, 1).value;
    var visit := NationalVisit(detail, target);
    forall url | url in PageLinks(listing(k).value, NationalHost) && visit(url).Some?
      ensures visit(url).value in NationalScrape(listing, detail, target)
    {
      var i :| 0 <= i < |links| && links[i] == url;
      KeepVisitedHas(links, visit, i);
    }
  }

  /** Executive-branch listing pages after the fifth, and after the first
      page with no links or no kept record, are never read. */
  lemma {:induction false} AdminFromAgree(l1: nat -> Option<seq<string>>, l2: nat -> Option<seq<string>>, visit: string -> Option<AdminRow>,
                                          page: nat, last: nat)
    requires 1 <= page <= last <= AdminPageLimit
    requires forall k :: page <= k <= last ==> l1(k) == l2(k)
    requires last == AdminPageLimit || (l1(last).Some? && KeepVisited(PageLinks(l1(last).value, AdminHost), visit) == [])
    ensures AdminFrom(l1, visit, page) == AdminFrom(l2, visit, page)
    decreases last - page
  {
    if page < last {
      AdminFromAgree(l1, l2, visit, page + 1, last);
    }
  }

  /** A listing request that raises after productive pages discards their
      records: the whole source yields nothing. */
  lemma {:induction false} AdminFromFail(listing: nat -> Option<seq<string>>, visit: string -> Option<AdminRow>, page: nat, failing: nat)
    requires 1 <= page <= failing <= AdminPageLimit
    requires listing(failing).None?
    requires forall k :: page <= k < failing ==> listing(k).Some? && KeepVisited(PageLinks(listing(k).value, AdminHost), visit) != []
    ensures AdminFrom(listing, visit, page).None?
    decreases failing - page
  {
    if page < failing {
      assert listing(page).value != [];
      AdminFromFail(listing, visit, page + 1, failing);
    }
  }

  /** An executive-branch record that passes the detail-page filter: it
      starts on the target date, has no proposer, is marked with that
      source, and ends on a valid date that is not before today. */
  ghost predicate AdminKept(row: AdminRow, target: string, today: Date) {
    && row.startDate == target && row.proposer == "" && row.source == Admin
    && exists e :: IsValid(e) && !IsBefore(e, today) && row.endDate == Render(e)
  }

  /** A record that one detail page yields passed the filter. */
  lemma AdminVisitKept(detail: string -> Option<AdminPage>, target: string, today: Date, url: string)
    ensures AdminVisit(detail, target, today)(url).Some? ==> AdminKept(AdminVisit(detail, target, today)(url).value, target, today)
  {
    var page := detail(url);
    var row := ScrapeAdminDetail(page, target, today);
    if row.Some? {
      AdminDetailKept(page, target, today);
      var period := ParsePeriod(FirstFound(page.value.periodElems).value);
      assert IsValid(period.end) && !IsBefore(period.end, today) && row.value.endDate == Render(period.end);
    }
  }

  /** Every record that one listing page's links yield passed the filter. */
  lemma AdminPageKept(links: seq<string>, detail: string -> Option<AdminPage>, target: string, today: Date)
    ensures forall row :: row in KeepVisited(links, AdminVisit(detail, target, today)) ==> AdminKept(row, target, today)
  {
    var visit := AdminVisit(detail, target, today);
    forall row: AdminRow | row in KeepVisited(links, visit)
      ensures AdminKept(row, target, today)
    {
      KeepVisitedFrom(links, visit, row);
      var i :| 0 <= i < |links| && visit(links[i]) == Some(row);
      AdminVisitKept(detail, target, today, links[i]);
    }
  }

  /** Every record collected from page `page` on was kept on one of the
      pages read. */
  lemma {:induction false} AdminFromPages(listing: nat -> Option<seq<string>>, visit: string -> Option<AdminRow>, page: nat)
    requires 1 <= page <= AdminPageLimit
    ensures AdminFrom(listing, visit, page).Some? ==>
      forall row :: row in AdminFrom(listing, visit, page).value ==>
        exists k :: page <= k <= AdminPageLimit && listing(k).Some? && row in KeepVisited(PageLinks(listing(k).value, AdminHost), visit)
    decreases AdminPageLimit - page
  {
    var response := listing(page);
    if response.Some? && response.value != [] {
      var kept := KeepVisited(PageLinks(response.value, AdminHost), visit);
      if kept != [] && page + 1 <= AdminPageLimit {
        AdminFromPages(listing, visit, page + 1);
        var rest := AdminFrom(listing, visit, page + 1);
        if rest.Some? {
          assert AdminFrom(listing, visit, page).value == kept + rest.value;
        }
      }
    }
  }

  /** Every record the executive-branch scrape returns passed the filter. */
  lemma AdminFromWindow(listing: nat -> Option<seq<string>>, detail: string -> Option<AdminPage>, target: string, today: Date, page: nat)
    requires 1 <= page <= AdminPageLimit
    ensures AdminFrom(listing, AdminVisit(detail, target, today), page).Some? ==>
      forall row :: row in AdminFrom(listing, AdminVisit(detail, target, today), page).value ==> AdminKept(row, target, today)
  {
    var visit := AdminVisit(detail, target, today);
    AdminFromPages(listing, visit, page);
    if AdminFrom(listing, visit, page).Some? {
      forall row | row in AdminFrom(listing, visit, page).value
        ensures AdminKept(row, target, today)
      {
        var k :| page <= k <= AdminPageLimit && listing(k).Some? && row in KeepVisited(PageLinks(listing(k).value, AdminHost), visit);
        AdminPageKept(PageLinks(listing(k).value, AdminHost), detail, target, today);
      }
    }
  }

  lemma AdminScrapeWindow(listing: nat -> Option<seq<string>>, detail: string -> Option<AdminPage>, target: string, today: Date)
    ensures forall row :: row in AdminScrape(listing, detail, target, today) ==> AdminKept(row, target, today)
  {
    AdminFromWindow(listing, detail, target, today, 1);
  }

  /** When no listing request raises, the records of every page read are
      collected: those of page `k`, provided the pages before it all kept a
      record. */
  lemma {:induction false} AdminFromInclude(listing: nat -> Option<seq<string>>, visit: string -> Option<AdminRow>, page: nat, k: nat)
    requires 1 <= page <= k <= AdminPageLimit
    requires AdminFrom(listing, visit, page).Some?
    requires forall m :: page <= m < k ==> listing(m).Some? && KeepVisited(PageLinks(listing(m).value, AdminHost), visit) != []
    ensures listing(k).Some?
    ensures forall row :: row in KeepVisited(PageLinks(listing(k).value, AdminHost), visit) ==> row in AdminFrom(listing, visit, page).value
    decreases k - page
  {
    if page < k {
      assert listing(page).value != [];
      AdminFromInclude(listing, visit, page + 1, k);
    }
  }

  /** The executive-branch scrape does return records: when no listing
      request raises, every link of a page read whose detail page passes
      the filter contributes its record. */
  lemma AdminScrapeKeeps(listing: nat -> Option<seq<string>>, detail: string -> Option<AdminPage>, target: string, today: Date, k: nat)
    requires 1 <= k <= AdminPageLimit
    requires AdminFrom(listing, AdminVisit(detail, target, today), 1).Some?
    requires forall m :: 1 <= m < k ==>
      listing(m).Some? && KeepVisited(PageLinks(listing(m).value, AdminHost), AdminVisit(detail, target, today)) != []
    ensures listing(k).Some?
    ensures forall url :: url in PageLinks(listing(k).value, AdminHost) && AdminVisit(detail, target, today)(url).Some? ==>
      AdminVisit(detail, target, today)(url).value in AdminScrape(listing, detail, target, today)
  {
    var visit := AdminVisit(detail, target, today);
    AdminFromInclude(listing, visit, 1, k);
    var links := PageLinks(listing(k).value, AdminHost);
    forall url | url in links && visit(url).Some?
      ensures visit(url).value in AdminScrape(listing, detail, target, today)
    {
      var i :| 0 <= i < |links| && links[i] == url;
      KeepVisitedHas(links, visit, i);
    }
  }
}
